=== FILE: README.md ===
# YouTube downloader front end: the logic behind the screens

The application is a single-page React app. It takes a YouTube link and
shows the video's details. It simulates a download with a progress toast and
records completed downloads in the signed-in user's history.

The App component also holds handlers for a free-text "smart search"
answered by an AI chat, and a refine panel for its result. The page never
calls them: the link box's props have no `onSmartSearch`
(components/UrlInput.tsx:4-11), so the handler App.tsx:349 passes to it is
dropped. `isSmartSearchResult` therefore stays false and the refine panel
(App.tsx:355) is never rendered. The model keeps these handlers and the
panel as written, at the level of the handlers.

This project models the parts of that app that decide something:

- the link validator;
- the mock download's life cycle (start, the interval's ticks, cancel, the
  timed reset, the history record a completion emits);
- the guards of the search, smart-search, refine, link-change and
  clear-history handlers, which share the download's state;
- the refine panel: the suggestion builder, the free-text submit and the
  quick actions;
- the progress toast: the file name, the status colours, icon and message,
  and the cancel control.

All of it is pure functions over immutable datatypes. Timers, randomness, the
clock, the AI service and the document store become parameters or events.

Modules, one per file:

| module | file | what it holds |
|---|---|---|
| `Options` | options.dfy | `Option` |
| `Text` | text.dfy | the JavaScript string built-ins the core uses: `trim`, `split` on one character, `Number` for integer numerals, `String(n)`, `toLowerCase` |
| `Dates` | dates.dfy | `Date.UTC` for integral arguments (section 21.4.1 of ECMA-262: MakeDay, DayFromYear, the 0–99 year rule, TimeClip) |
| `Types` | types.dfy | the records of types.ts, the download format catalog and the mock video |
| `UrlValidator` | url_validator.dfy | `isValidYoutubeUrl` and the language of its regular expression |
| `DownloadLifecycle` | lifecycle.dfy | the download state machine |
| `App` | app.dfy | the App component's state and handlers |
| `Refine` | refine.dfy | the refine panel |
| `Toast` | toast.dfy | the progress toast |

Time is modelled with events and parameters:

- One `Tick` is one firing of the 200 ms interval. Its random increment
  `Math.random() * 5 + 2` is a parameter `inc` with `2 <= inc < 7`.
- `TimedClear` is the 3000 ms reset.
- The "one year ago" instant the refine panel reads from the clock is a
  parameter, in milliseconds.

Each handler is run to the end. The AI's answer is a parameter
`reply: Option<VideoInfo>`, where `None` stands for any failure: creating the
chat, sending the message, or parsing the JSON. The store's outcome (`committed`)
is also a parameter. The history record the completion effect writes comes
out as an emitted value.

Where the behaviour is surprising, the model keeps what the code does:

- **`.` in the link pattern.** Written without the `s` flag, the regular
  expression's `.` matches no line terminator at all, so it excludes `\r`,
  U+2028 and U+2029 as well as `\n`. A link with any of them in its tail is
  refused (`UrlValidator.ValidAfterPrefix`).
- **The link box refuses a submit while busy.** Its submit handler calls
  the search only when `isLoading` is false (components/UrlInput.tsx:14),
  and the input and button are disabled meanwhile (lines 27 and 31).
- **A refused search still ends the smart session.** `handleSearch`
  resets the smart-search session (App.tsx:168) before `performSearch`
  checks for a running download (App.tsx:156), so in the handler the reset
  happens even when the search is refused. The page never reaches that
  path: while a download runs, the link box and its button are disabled
  and a submit is ignored (App.tsx:322-323, 350; components/UrlInput.tsx:14,
  27, 31). `App.Search` states the handler as written.
- **The history record can be written twice.** The terminal-status effect
  lists the user among its dependencies. It therefore runs again when the
  user changes while a completed download is still on screen, and writes
  that download to the new user's history. Signing out and back in within
  the three-second window records the same download twice
  (`App.CompletedDownloadRecordedAgainOnUserChange`).
- **Refine has no download guard.** `handleRefineSearch` checks only the
  session (App.tsx:258), so the handler itself would run during a
  download. The page never calls it, as said above; and even with a smart
  result shown, the refine panel is rendered only when nothing is busy
  (App.tsx:355). `App.Refine` states the handler as
  written.
- **The completion message is kept as written.** It is stored as
  "Conclu√≠do!", the text an encoding slip made of "Concluído!",
  and it is compared character by character.

A few more facts about the code that a reader might not expect:

- **The validator wants a `/` after the host.** The pattern at App.tsx:318
  demands `/` right after `youtube.com`, `youtu.be` or `youtube`
  and then at least one character, none of them a line terminator; a bare
  host such as `youtube.com` is refused (`UrlValidator.RejectsEmptyTail`).
- **A malformed link clears the session and the video.** `handleSearch`
  drops the smart session (App.tsx:168) and `performSearch` clears the
  shown video (App.tsx:157) before the validator's verdict sets the error
  (App.tsx:170-172) (`App.Search`).
- **A failed refinement keeps the session.** The refine handler's `catch`
  only sets its message (App.tsx:301-303); the chat session and the shown
  video survive (`App.Refine`).
- **A completed download is not always recorded once.** Because the
  terminal-status effect depends on `user` (App.tsx:129), a user change
  while the completed download is on screen writes another record (see
  above).

## Model

| member | source | states |
|---|---|---|
| UrlValidator.IsValidYoutubeUrl | App.tsx:317-320 | an accepted link has at least nine characters (a host, its slash and one more) and does not end in a line terminator |
| UrlValidator.ValidIffMatchesPattern | App.tsx:317-320 | the validator accepts a string exactly when some choice of optional `http://`/`https://`, optional `www.` and one of `youtube.com`, `youtube`, `youtu.be` followed by `/` spells its start and the rest is one or more characters, none a line terminator |
| UrlValidator.ReadShape | App.tsx:318 | on a string that starts with the prefix of one choice of the optional parts, the verdict is exactly whether that choice followed by a proper tail spells the string: the pattern cannot match by any other choice |
| UrlValidator.ValidAfterPrefix | App.tsx:318 | behind any scheme/www/host prefix the verdict is "the rest is non-empty and free of line terminators", in both directions |
| UrlValidator.PatternImpliesValid | App.tsx:318 | every string of the pattern's shape is accepted |
| UrlValidator.ValidImpliesPattern | App.tsx:318 | every accepted string is spelled by the scheme, `www.` and host the reading found, followed by a proper tail |
| UrlValidator.AcceptsWatchLink | App.tsx:317-320 | `https://www.youtube.com/watch?v=dQw4w9WgXcQ` is accepted |
| UrlValidator.AcceptsShortLink | App.tsx:317-320 | `youtu.be/dQw4w9WgXcQ` is accepted |
| UrlValidator.RejectsFreeText | App.tsx:317-320 | `not a url` is refused |
| UrlValidator.RejectsEmptyTail | App.tsx:318 | a host and its slash with nothing after them are refused, whatever the scheme and `www.` |
| UrlValidator.RejectsLineBreak | App.tsx:318 | a tail broken by a newline is refused, since `$` must be at the end of the input |
| UrlValidator.EmptyIsInvalid | App.tsx:170 | the empty string is refused, so the separate emptiness test before the call never changes the outcome |
| DownloadLifecycle.Start | App.tsx:74-83 | refused (state unchanged) without a video or while any download is shown, terminal ones included; otherwise the chosen format and the video's title at 0 %, `downloading`, interval running; validity is preserved |
| DownloadLifecycle.Tick | App.tsx:84-97 | no running interval: no change; no download: stop with nothing shown; a sum of at least 100 gives exactly 100, `completed`, interval stopped; below 100 only progress changes; format and title always kept; on valid states progress never decreases and never exceeds 100; validity is preserved |
| DownloadLifecycle.Cancel | App.tsx:100-103 | the interval stops; a shown download turns `cancelled` with every other field kept; none shown stays none; validity is preserved |
| DownloadLifecycle.ClearScheduled | App.tsx:123-128 | on valid states a reset is pending exactly when a download is shown and the interval has stopped, so `downloading` never schedules one |
| DownloadLifecycle.TimedClear | App.tsx:124-126 | the reset removes the toast, which leaves a valid state idle |
| DownloadLifecycle.HistoryRecordFor | App.tsx:108-120 | a record is emitted exactly when a user is present and the shown download is `completed`, and it carries that download's title and format |
| DownloadLifecycle.SumBounds | App.tsx:90 | n increments from [2, 7) add up to at least 2n and to less than 7n |
| DownloadLifecycle.RunTicksStopped | App.tsx:84-97 | once the interval has stopped, further firings change nothing |
| DownloadLifecycle.TickRunOutcome | App.tsx:84-97 | from a running download, a run of ticks ends with the running sum as progress while that stays below 100, and otherwise completed at exactly 100 with the interval stopped: completion comes on the first tick that reaches 100 |
| DownloadLifecycle.CompletesWithinFiftyTicks | App.tsx:84-97 | fifty firings always complete a download started from 0 % |
| DownloadLifecycle.NoCompletionBeforeFifteenTicks | App.tsx:84-97 | fourteen firings or fewer never complete it; the progress is then the sum of the increments |
| DownloadLifecycle.CancelFreezes | App.tsx:100-103 | after a cancel, firings change nothing, so the cancelled download keeps its progress |
| App.Init | App.tsx:24-33 | the mounted state satisfies the invariant: the auth user, an empty link box, no error, no download, no history, no video, no session |
| App.Search | App.tsx:155-190 | the smart session is always dropped; while downloading, the video and error are untouched; otherwise there is no error exactly when the link passes the validator, and the result is then the mock video, else no video and the invalid-link message; the invariant is preserved |
| App.SmartSearch | App.tsx:192-255 | refused unchanged while downloading; an empty query sets only its message; otherwise one new session number is drawn and the shown video is the reply, success keeps that session, failure drops it and sets the failure message; the link, the download, the user and the history are unchanged; the invariant is preserved |
| App.RefineRequest | App.tsx:280 | the request is the fixed preamble, the instruction, then a closing quote |
| App.RefineRequestInjective | App.tsx:280 | two requests are equal exactly when their instructions are |
| App.Refine | App.tsx:257-307 | an instruction is sent exactly when a session exists; without one only the not-found message is set; with one, success replaces the video and clears the message, failure only sets its message, and nothing else in the state changes |
| App.UrlChange | App.tsx:309-315 | the new text is stored; a shown error is cleared, an empty-string error stays; a smart-search result loses its session; nothing else changes, the session counter included |
| App.SessionsNeverReused | App.tsx:203-209 | a smart search after a smart search and an edit of the query opens a different session |
| App.ClearHistory | App.tsx:135-153 | a delete is attempted exactly when a user is present and the list is non-empty; a refused or successful attempt leaves the state unchanged; a failed one sets its message |
| App.HistoryDelivered | App.tsx:47-58 | the listener's list replaces the history, and only with a user signed in |
| App.HistoryLoadFailed | App.tsx:59-62 | a listener error sets the load-failure message, and only with a user signed in |
| App.SetUser | App.tsx:38-41 | only the user and the history change, and signing out empties the history; a record is emitted exactly when the user changed to a present one while a completed download is shown, and it is the record the terminal-status effect writes |
| App.StartDownload | App.tsx:74-83 | only the download part changes, as `DownloadLifecycle.Start` on the shown video; no record is emitted |
| App.TickDownload | App.tsx:84-129 | only the download part changes; on reachable states a record is emitted exactly when this firing completes the download and a user is signed in |
| App.CancelDownload | App.tsx:100-103 | only the download part changes, and a cancelled download never yields a record |
| App.ClearTimerFires | App.tsx:123-128 | only the download part changes; on reachable states it becomes idle |
| App.RunAppTicksStopped | App.tsx:84-97 | with the interval stopped, firings change nothing and record nothing |
| App.OneRecordPerCompletion | App.tsx:105-121 | a running download is recorded once, with its title and format, if a user is signed in and the increments reach 100; otherwise nothing is recorded |
| App.CompletedDownloadRecordedAgainOnUserChange | App.tsx:105-129 | completing under user A, signing out and signing in as B emits the same record twice, the second time with B signed in |
| Refine.MinutesOf | components/RefineSearch.tsx:34-40 | any piece count other than two or three gives 0 minutes; with two or three pieces the result is NaN exactly when one of them is not a number |
| Refine.DurationMinutes | components/RefineSearch.tsx:34-40 | a duration that does not split at `:` into two or three pieces is 0 minutes; one that does is NaN exactly when one of its pieces is not a number |
| Refine.DurationWithoutColon | components/RefineSearch.tsx:34-40 | a duration without `:` counts as 0 minutes |
| Refine.DurationOfMinutesSeconds | components/RefineSearch.tsx:38-39 | `M:S` with numeric pieces is M + S/60 minutes |
| Refine.DurationOfHoursMinutesSeconds | components/RefineSearch.tsx:36-37 | `H:M:S` with numeric pieces is 60·H + M + S/60 minutes |
| Refine.DateOf | components/RefineSearch.tsx:49-50 | fewer than three pieces, or a non-numeric piece among the first three, give NaN; a defined instant is a whole number of days |
| Refine.UploadInstant | components/RefineSearch.tsx:49-50 | a date with fewer than three `-`-pieces, or with a non-numeric piece among the first three, is NaN; a defined instant is midnight UTC |
| Refine.UploadInstantOfDate | components/RefineSearch.tsx:49-50 | `Y-M-D` with numeric pieces is `Date.UTC(Y, M - 1, D)` |
| Refine.DateOfIgnoresLaterPieces | components/RefineSearch.tsx:50 | pieces after the third do not change the instant |
| Refine.UploadInstantIgnoresLaterPieces | components/RefineSearch.tsx:49-50 | `Y-M-D-rest` gives the same instant as `Y-M-D`, whatever the rest |
| Refine.RecentIffEarlierDate | components/RefineSearch.tsx:49-57 | for a calendar upload date and a cutoff at any time of a calendar day, "Mais recente" is offered exactly when the upload date is an earlier day, or is the cutoff's own day and the cutoff lies after that day's midnight |
| Refine.SuggestsRecent | components/RefineSearch.tsx:55 | a date with fewer than three pieces, or a non-numeric piece among the first three, never asks for a newer video; one that does implies a cutoff above the earliest time value |
| Refine.DurationSuggestion | components/RefineSearch.tsx:42-46 | "Mais curto" exactly above ten minutes, "Mais longo" exactly strictly between zero and five, neither for NaN, for zero or less, or from five to ten |
| Refine.Upsert | components/RefineSearch.tsx:59 | setting a label in an insertion-ordered map keeps every existing label in place and every entry with another label unchanged, adds the new label at the end only if it is new, holds the new entry afterwards and, on distinct labels, makes it the only entry with its label |
| Refine.DedupByLabel | components/RefineSearch.tsx:59 | the result has distinct labels, the same set of labels as the input, no more entries, and each of its entries is the last entry of the input with that label |
| Refine.UpsertKeepsLast | components/RefineSearch.tsx:59 | one more `set` keeps every entry the last one with its label |
| Refine.DedupKeepsDistinct | components/RefineSearch.tsx:59 | de-duplicating a list whose labels are already distinct returns it unchanged, order included |
| Refine.UpsertPresentCaptions | components/RefineSearch.tsx:59 | setting a label the map already holds leaves the label sequence exactly as it was |
| Refine.UpsertAbsentCaptions | components/RefineSearch.tsx:59 | setting a label the map does not hold appends it after the existing labels |
| Refine.DedupKeepsFirstOccurrenceOrder | components/RefineSearch.tsx:59 | the de-duplicated labels are the input's labels in the order each first occurs, each once |
| Refine.Slice | components/RefineSearch.tsx:60 | the result is the first n entries, or the whole of a shorter list |
| Refine.CandidatesFacts | components/RefineSearch.tsx:32-57 | the collected list starts with "Outro parecido", has distinct labels and at most three entries, holds each other suggestion exactly when its rule fired, and holds nothing but the four suggestions |
| Refine.Suggestions | components/RefineSearch.tsx:28-61 | empty without a video; otherwise "Outro parecido" first, "Mais curto" iff over ten minutes, "Mais longo" iff strictly between zero and five, "Mais recente" iff uploaded before the cutoff and then last; never both duration chips; nothing but these four suggestions; distinct labels; at most three |
| Refine.Submit | components/RefineSearch.tsx:14-20 | an instruction is sent exactly when nothing is refining and the text is not all whitespace; it is the trimmed text, which neither starts nor ends with whitespace, and the box is emptied; otherwise the box keeps its text |
| Refine.QuickAction | components/RefineSearch.tsx:22-26 | the chip's instruction is sent unchanged exactly when nothing is refining |
| Toast.FileName | components/DownloadProgress.tsx:14 | the name is the first min(30, length) characters of the title, then `... - `, the quality, a dot and the lower-cased format, position by position |
| Toast.FileNameExtensionLowered | components/DownloadProgress.tsx:14 | the extension has no upper-case letter and differs from the format only by lowering letters |
| Toast.CatalogContainers | components/DownloadOptions.tsx:5-17 | the catalog's video rows are MP4 and its audio rows MP3 or M4A |
| Toast.CatalogExtensions | components/DownloadOptions.tsx:5-17 | the extension a catalog row gives its file name is `mp4` for a video row and `mp3` or `m4a` for an audio row |
| Toast.RoundHalfUp | components/DownloadProgress.tsx:23 | `Math.round` gives the integer within half of x, halves going up |
| Toast.StatusInfoOf | components/DownloadProgress.tsx:16-43 | `downloading` is blue with the video icon exactly for a video format and the audio icon exactly for an audio one, and shows the rounded percentage; `completed` is green with the check icon and the completion message; `cancelled` and `error` are red with the cross icon and "Falhou" |
| Toast.CancelledLooksLikeError | components/DownloadProgress.tsx:32-39 | a cancelled and a failed download are shown identically |
| Toast.PercentReadsBack | components/DownloadProgress.tsx:23 | while downloading, the message is a numeral followed by `%`, and the numeral reads back as the rounded progress |
| Toast.PercentShownWhileDownloading | components/DownloadProgress.tsx:18-24 | on reachable states the percentage shown while downloading lies in 0..100, and from 99.5 % on it already reads "100%" |
| Toast.ShowsCancel | components/DownloadProgress.tsx:63 | the cancel control is shown exactly when the toast is blue, and never beside the completion or failure message |
| Toast.CancelShownIffTicking | components/DownloadProgress.tsx:63 | on reachable states the cancel control is shown exactly while the progress interval runs |
| Text.Split | components/RefineSearch.tsx:34 | `split` on one character gives at least one piece, no piece holds the separator, and joining the pieces with it gives back the string |
| Text.SplitJoin | components/RefineSearch.tsx:49 | splitting separator-free pieces joined by the separator gives back those pieces |
| Text.SplitThreeThenRest | components/RefineSearch.tsx:49 | three separator-free pieces each followed by the separator split off ahead of the parts of the rest |
| Text.Trim | components/RefineSearch.tsx:16-17 | `trim` never lengthens the string, and a non-empty result neither starts nor ends with whitespace |
| Text.TrimInfix | components/RefineSearch.tsx:16 | `trim` returns the contiguous middle of the string, with only whitespace before and after it |
| Text.TrimEmptyIff | components/RefineSearch.tsx:16 | `trim` gives the empty string exactly when every character is whitespace |
| Text.TrimIdempotent | components/RefineSearch.tsx:17 | trimming twice is trimming once |
| Text.NumberOfIntToString | components/DownloadProgress.tsx:23 | `Number(String(i))` is i for every integer |
| Text.NumberOf | components/RefineSearch.tsx:34 | `Number` reads an all-whitespace string as 0, and a string it reads as a number ends, once trimmed, in a digit |
| Text.NumberOfDigits | components/RefineSearch.tsx:34 | a non-empty run of decimal digits reads as its decimal value |
| Text.ToLower | components/DownloadProgress.tsx:14 | `toLowerCase` keeps the length, leaves no upper-case letter, and moves each upper-case letter down by 32 code points while keeping every other character |
| Dates.DateUtc | components/RefineSearch.tsx:50 | a defined `Date.UTC` result lies within TimeClip's bound and is a whole number of days |
| Dates.DateUtcOrderMatchesCalendar | components/RefineSearch.tsx:50-55 | for calendar dates in years 100 to 200000, `Date.UTC` orders its results like the dates |
| Dates.TwoDigitYear | components/RefineSearch.tsx:50 | a year from 0 to 99 is read as 1900 plus that year |
| Dates.DateUtcExample | components/RefineSearch.tsx:50 | 26 October 2023 is 1698278400000 ms after the epoch |

## Left out

- The identity provider and the document store (firebase.ts,
  contexts/AuthContext.tsx, components/Auth.tsx): these are foreign calls.
  The history append is an emitted `HistoryRecord`. The listener's deliveries
  and errors are the events `App.HistoryDelivered` and `App.HistoryLoadFailed`.
  The server timestamp, and the fallback to the current time for a missing
  timestamp, are not modelled.
- The AI chat service and `JSON.parse` of its answer: the answer is the
  parameter `reply`. The generated id (`Date.now()`) and the thumbnail URL
  built from the title are whatever the reply holds.
- `setInterval`, `setTimeout` and the 1500 ms simulated latency are discrete
  events or are folded into the handler. `Math.random` is the parameter `inc`.
- `isLoading` is not part of the state: each handler is taken to its end, so
  the loading window is never observed. The interleavings that window would
  allow are not modelled: a second search while one is pending, or a stale
  answer arriving after the state has moved on.
- The unmount cleanup that stops the interval is not modelled, because there
  is no unmounting in the model.
- `new Date()` and `setFullYear(... - 1)` are left to the caller: the cutoff
  is a parameter. Time zones and `toLocaleString` are not used by the core.
- Text.NumberOf: models `Number` only for an optional sign followed by ASCII
  decimal digits, blanks (read as 0), and surrounding whitespace. Decimal
  points, exponents, `0x`/`0o`/`0b` prefixes and `Infinity` read as NaN here,
  because durations and dates in the shapes the app asks the AI for never
  contain them.
- Text.ToLower: lowers only ASCII and Latin-1 capitals, not the rest of
  Unicode's case mappings.
- Toast.FileName: `substring(0, 30)` counts UTF-16 code units, while the model
  counts characters. The two differ only for titles with characters outside
  the Basic Multilingual Plane.
- Progress and minutes are exact reals. Floating-point rounding of
  `prev.progress + inc` and of `s / 60` is not modelled.
- The toast's `default` branch (grey, no icon, empty message) cannot be
  reached, because the status type has four values.
- Dates.DateUtc: takes integral arguments only. `Date.UTC` on non-integral
  or non-finite numbers is not modelled.
- The presentation components (History, VideoDetails, Loader,
  DownloadOptions apart from its format catalog, and index.tsx) hold no
  logic beyond rendering. The catalog is kept as data in `Types`.
- UrlInput is not modelled as a member. Its one decision, the submit guard
  on `isLoading` (components/UrlInput.tsx:14), is described among the
  surprising behaviours above; the handlers are modelled as called.

=== FILE: app.dfy ===
/** The state of the App component and its handlers, each run to the end:
    the simulated search latency, the AI round trip and the store's
    acknowledgement are folded into the handler, with the AI's reply and
    the store's outcome passed in. The download lifecycle is the one of
    `DownloadLifecycle`; this module adds the search-side guards that share
    its state, the signed-in user, the history list, the smart-search
    session, and the history record the terminal-status effect emits. */
module App {
  import opened Options
  import opened Types
  import opened UrlValidator
  import opened DownloadLifecycle

  const InvalidUrlMessage: string := "Por favor, insira um URL válido do YouTube."
  const EmptyQueryMessage: string := "Por favor, digite algo para a busca inteligente."
  const SmartSearchFailedMessage: string := "A busca inteligente falhou. Tente novamente."
  const NoSessionMessage: string := "Sessão de busca inteligente não encontrada. Inicie uma nova busca."
  const RefineFailedMessage: string := "O refinamento da busca falhou. Tente novamente."
  const ClearFailedMessage: string := "Falha ao limpar o histórico."
  const HistoryLoadFailedMessage: string := "Não foi possível carregar o histórico."

  /** The text in front of the user's instruction in a refine request. */
  const RefinePreamble: string := "Ok, agora refine a busca anterior com esta instrução: \""

  /** The component's state. A chat session is identified by a number drawn
      from `nextSession`, so a fresh session is one never handed out
      before. */
  datatype AppState = AppState(
    user: Option<User>,
    url: string,
    error: Option<string>,
    videoInfo: Option<VideoInfo>,
    downloads: DownloadState,
    history: seq<HistoryItem>,
    chatSession: Option<nat>,
    nextSession: nat,
    isSmartSearchResult: bool)

  /** What every reachable state satisfies: the download part is valid; a
      chat session exists exactly while a smart-search result is shown and
      was handed out earlier; without a user the history is empty; and a
      shown error is never the empty string. */
  predicate Inv(st: AppState) {
    && Valid(st.downloads)
    && (st.chatSession.Some? <==> st.isSmartSearchResult)
    && (st.chatSession.Some? ==> st.chatSession.value < st.nextSession)
    && (st.user.None? ==> st.history == [])
    && st.error != Some([])
  }

  /** The state right after mounting for the given auth user. */
  function Init(user: Option<User>): (st: AppState)
    ensures Inv(st)
    ensures st.user == user && st.url == [] && st.error.None?
    ensures st.downloads == Idle && st.history == [] && st.videoInfo.None? && st.chatSession.None?
  {
    AppState(user, "", None, None, Idle, [], None, 0, false)
  }

  // ---------------------------------------------------------------------
  // searching

  /** App.tsx handleSearch with performSearch: the smart-search session is
      dropped first, even when the search is then refused because a
      download is running. Otherwise the shown video is cleared and a link
      that passes the validator yields the mock video; anything else
      yields the invalid-link message and no video. */
  function Search(st: AppState): (r: AppState)
    ensures r.chatSession.None? && !r.isSmartSearchResult
    ensures r.user == st.user && r.url == st.url && r.downloads == st.downloads
            && r.history == st.history && r.nextSession == st.nextSession
    ensures IsDownloading(st.downloads) ==> r.videoInfo == st.videoInfo && r.error == st.error
    ensures !IsDownloading(st.downloads) ==>
      && (r.error.None? <==> IsValidYoutubeUrl(st.url))
      && (IsValidYoutubeUrl(st.url) ==> r.videoInfo == Some(MockVideo))
      && (!IsValidYoutubeUrl(st.url) ==> r.videoInfo.None? && r.error == Some(InvalidUrlMessage))
    ensures Inv(st) ==> Inv(r)
  {
    EmptyIsInvalid();
    var reset := st.(isSmartSearchResult := false, chatSession := None);
    if IsDownloading(st.downloads) then reset
    else if |st.url| == 0 || !IsValidYoutubeUrl(st.url) then
      reset.(videoInfo := None, error := Some(InvalidUrlMessage))
    else reset.(videoInfo := Some(MockVideo), error := None)
  }

  /** App.tsx handleInitialSmartSearch, with `reply` the video the AI
      answered with (None when creating the chat, the request or reading
      its JSON failed). Refused while a download runs; an empty query only
      sets its message; otherwise a fresh session is opened and kept on
      success, and dropped with the failure message otherwise. */
  function SmartSearch(st: AppState, reply: Option<VideoInfo>): (r: AppState)
    ensures IsDownloading(st.downloads) ==> r == st
    ensures !IsDownloading(st.downloads) && |st.url| == 0 ==> r == st.(error := Some(EmptyQueryMessage))
    ensures !IsDownloading(st.downloads) && |st.url| > 0 ==>
      && r.videoInfo == reply
      && r.isSmartSearchResult == reply.Some?
      && (reply.Some? ==> r.chatSession == Some(st.nextSession) && r.error.None?)
      && (reply.None? ==> r.chatSession.None? && r.error == Some(SmartSearchFailedMessage))
      && r.nextSession == st.nextSession + 1
    ensures r.downloads == st.downloads && r.user == st.user && r.history == st.history && r.url == st.url
    ensures Inv(st) && r.chatSession.Some? && st.chatSession.Some? && r.chatSession != st.chatSession ==>
      st.chatSession.value < r.chatSession.value
    ensures Inv(st) ==> Inv(r)
  {
    if IsDownloading(st.downloads) then st
    else if |st.url| == 0 then st.(error := Some(EmptyQueryMessage))
    else
      var started := st.(nextSession := st.nextSession + 1);
      match reply
      case None =>
        started.(error := Some(SmartSearchFailedMessage), videoInfo := None,
                chatSession := None, isSmartSearchResult := false)
      case Some(v) =>
        started.(error := None, videoInfo := Some(v),
                chatSession := Some(st.nextSession), isSmartSearchResult := true)
  }

  /** The request sent to the chat session to refine the previous search. */
  function RefineRequest(prompt: string): (m: string)
    ensures |m| == |RefinePreamble| + |prompt| + 1
    ensures m[..|RefinePreamble|] == RefinePreamble && m[|m| - 1] == '"'
    ensures m[|RefinePreamble|..|m| - 1] == prompt
  {
    RefinePreamble + prompt + "\""
  }

  /** Two refine requests are equal only when the instructions are. */
  lemma RefineRequestInjective(p: string, q: string)
    ensures RefineRequest(p) == RefineRequest(q) <==> p == q
  {
    if RefineRequest(p) == RefineRequest(q) {
      assert p == RefineRequest(p)[|RefinePreamble|..|RefineRequest(p)| - 1];
    }
  }

  /** App.tsx handleRefineSearch, with `reply` the video the AI answered
      with. Without a session only the not-found message is set and
      nothing is sent; with one the instruction is sent on that session,
      which stays as it is; success replaces the video, failure sets its
      message and keeps the video. No download guard applies. */
  function Refine(st: AppState, prompt: string, reply: Option<VideoInfo>): (res: (AppState, Option<string>))
    ensures var (r, sent) := res;
      && (sent.Some? <==> st.chatSession.Some?)
      && (st.chatSession.None? ==> r == st.(error := Some(NoSessionMessage)))
      && (st.chatSession.Some? ==>
            && sent == Some(RefineRequest(prompt))
            && (reply.Some? ==> r == st.(error := None, videoInfo := reply))
            && (reply.None? ==> r == st.(error := Some(RefineFailedMessage))))
    ensures Inv(st) ==> Inv(res.0)
  {
    if st.chatSession.None? then (st.(error := Some(NoSessionMessage)), None)
    else
      var r := match reply
        case Some(v) => st.(error := None, videoInfo := Some(v))
        case None => st.(error := Some(RefineFailedMessage));
      (r, Some(RefineRequest(prompt)))
  }

  /** App.tsx handleUrlChange: the new text is kept, a shown error is
      cleared, and a smart-search result loses its session. */
  function UrlChange(st: AppState, newUrl: string): (r: AppState)
    ensures r == st.(url := newUrl, error := r.error, chatSession := r.chatSession, isSmartSearchResult := false)
    ensures st.error != Some([]) ==> r.error.None?
    ensures st.error == Some([]) ==> r.error == st.error
    ensures st.isSmartSearchResult ==> r.chatSession.None?
    ensures !st.isSmartSearchResult ==> r.chatSession == st.chatSession
    ensures Inv(st) ==> Inv(r)
  {
    var cleared := if st.error.Some? && st.error.value != [] then None else st.error;
    if st.isSmartSearchResult then
      st.(url := newUrl, error := cleared, isSmartSearchResult := false, chatSession := None)
    else st.(url := newUrl, error := cleared)
  }

  /** Typing a new query after a smart search and searching again opens a
      session different from the one the first search opened. */
  lemma SessionsNeverReused(st: AppState, v: VideoInfo, w: VideoInfo, query: string)
    requires Inv(st)
    requires SmartSearch(st, Some(v)).chatSession.Some?
    requires SmartSearch(UrlChange(SmartSearch(st, Some(v)), query), Some(w)).chatSession.Some?
    ensures SmartSearch(UrlChange(SmartSearch(st, Some(v)), query), Some(w)).chatSession
         != SmartSearch(st, Some(v)).chatSession
  {
  }

  // ---------------------------------------------------------------------
  // history

  /** App.tsx handleClearHistory, with `committed` whether the store's batch
      delete went through. Nothing happens without a user or with an empty
      list; a failed delete sets its message. The list itself changes only
      when the store's listener delivers the new contents. */
  function ClearHistory(st: AppState, committed: bool): (res: (AppState, bool))
    ensures var (r, attempted) := res;
      && (attempted <==> st.user.Some? && |st.history| > 0)
      && (!attempted || committed ==> r == st)
      && (attempted && !committed ==> r == st.(error := Some(ClearFailedMessage)))
    ensures Inv(st) ==> Inv(res.0)
  {
    if st.user.None? || |st.history| == 0 then (st, false)
    else if committed then (st, true)
    else (st.(error := Some(ClearFailedMessage)), true)
  }

  /** The history listener delivers the user's list (App.tsx:47-58); there
      is no listener without a user. */
  function HistoryDelivered(st: AppState, items: seq<HistoryItem>): (r: AppState)
    ensures st.user.None? ==> r == st
    ensures st.user.Some? ==> r == st.(history := items)
    ensures Inv(st) ==> Inv(r)
  {
    if st.user.None? then st else st.(history := items)
  }

  /** The history listener reports an error (App.tsx:59-62). */
  function HistoryLoadFailed(st: AppState): (r: AppState)
    ensures st.user.None? ==> r == st
    ensures st.user.Some? ==> r == st.(error := Some(HistoryLoadFailedMessage))
    ensures Inv(st) ==> Inv(r)
  {
    if st.user.None? then st else st.(error := Some(HistoryLoadFailedMessage))
  }

  /** The auth user changes. Signing out empties the list (App.tsx:38-41).
      Because the terminal-status effect lists the user among its
      dependencies, it runs again, so a completed download still on screen
      is recorded for the new user. */
  function SetUser(st: AppState, u: Option<User>): (res: (AppState, Option<HistoryRecord>))
    ensures var (r, rec) := res;
      && r == st.(user := u, history := if u.None? then [] else st.history)
      && (rec.Some? <==> u != st.user && u.Some? && st.downloads.download.Some?
                          && st.downloads.download.value.status == Completed)
      && (rec.Some? ==> rec == HistoryRecordFor(st.downloads, u))
    ensures Inv(st) ==> Inv(res.0)
  {
    var r := st.(user := u, history := if u.None? then [] else st.history);
    (r, if u != st.user then HistoryRecordFor(st.downloads, u) else None)
  }

  // ---------------------------------------------------------------------
  // the download, seen from the app

  /** App.tsx handleDownloadStart on the app state. No record is emitted:
      the new status is `downloading`. */
  function StartDownload(st: AppState, format: DownloadFormat): (r: AppState)
    ensures r.downloads == Start(st.downloads, st.videoInfo, format)
    ensures HistoryRecordFor(r.downloads, r.user).None? || r.downloads == st.downloads
    ensures r.(downloads := st.downloads) == st
    ensures Inv(st) ==> Inv(r)
  {
    st.(downloads := Start(st.downloads, st.videoInfo, format))
  }

  /** One firing of the interval; when the shown download changed the
      terminal-status effect runs on the new one, which emits a record
      exactly when this firing completed it and a user is signed in. */
  function TickDownload(st: AppState, inc: real): (res: (AppState, Option<HistoryRecord>))
    requires 2.0 <= inc < 7.0
    ensures var (r, rec) := res;
      && r.downloads == Tick(st.downloads, inc)
      && r.(downloads := st.downloads) == st
      && (Inv(st) ==>
            (rec.Some? <==> st.user.Some? && IsDownloading(st.downloads)
                            && st.downloads.download.value.progress + inc >= 100.0))
      && (rec.Some? ==> rec == HistoryRecordFor(r.downloads, st.user))
    ensures Inv(st) ==> Inv(res.0)
  {
    var r := st.(downloads := Tick(st.downloads, inc));
    (r, if r.downloads.download != st.downloads.download then HistoryRecordFor(r.downloads, st.user) else None)
  }

  /** App.tsx handleDownloadCancel on the app state; a cancelled download is
      never recorded. */
  function CancelDownload(st: AppState): (r: AppState)
    ensures r.downloads == Cancel(st.downloads)
    ensures HistoryRecordFor(r.downloads, r.user).None?
    ensures r.(downloads := st.downloads) == st
    ensures Inv(st) ==> Inv(r)
  {
    st.(downloads := Cancel(st.downloads))
  }

  /** The reset timer fires and the toast disappears. */
  function ClearTimerFires(st: AppState): (r: AppState)
    requires ClearScheduled(st.downloads)
    ensures r.downloads.download.None?
    ensures r.(downloads := st.downloads) == st
    ensures Inv(st) ==> Inv(r) && r.downloads == Idle
  {
    st.(downloads := TimedClear(st.downloads))
  }

  // ---------------------------------------------------------------------
  // properties across several events

  /** The state and the records emitted after the interval fires once per
      increment. */
  function RunAppTicks(st: AppState, incs: seq<real>): (AppState, seq<HistoryRecord>)
    requires IncrementsInRange(incs)
    decreases |incs|
  {
    if |incs| == 0 then (st, [])
    else
      var (r, rec) := TickDownload(st, incs[0]);
      var (r', recs) := RunAppTicks(r, incs[1..]);
      (r', (if rec.Some? then [rec.value] else []) + recs)
  }

  /** With the interval stopped, firings change nothing and record nothing. */
  lemma {:induction false} RunAppTicksStopped(st: AppState, incs: seq<real>)
    requires Inv(st) && !st.downloads.ticking && IncrementsInRange(incs)
    ensures RunAppTicks(st, incs) == (st, [])
    decreases |incs|
  {
    if |incs| > 0 {
      IncrementsTail(incs);
      assert Tick(st.downloads, incs[0]) == st.downloads;
      assert TickDownload(st, incs[0]) == (st, None);
      RunAppTicksStopped(st, incs[1..]);
      var none: seq<HistoryRecord> := [];
      assert RunAppTicks(st, incs) == (st, none + none);
      assert none + none == none;
    }
  }

  /** A download that runs to completion is recorded exactly once, and only
      with a user signed in; one that does not complete is not recorded. */
  lemma {:induction false} OneRecordPerCompletion(st: AppState, incs: seq<real>)
    requires Inv(st) && IsDownloading(st.downloads) && IncrementsInRange(incs)
    ensures var d := st.downloads.download.value;
      var recs := RunAppTicks(st, incs).1;
      recs == if st.user.Some? && d.progress + Sum(incs) >= 100.0
              then [HistoryRecord(d.videoTitle, d.format)] else []
    decreases |incs|
  {
    var d := st.downloads.download.value;
    if |incs| > 0 {
      IncrementsTail(incs);
      SumBounds(incs[1..]);
      var (r, rec) := TickDownload(st, incs[0]);
      if d.progress + incs[0] >= 100.0 {
        RunAppTicksStopped(r, incs[1..]);
      } else {
        OneRecordPerCompletion(r, incs[1..]);
      }
    }
  }

  /** Signing out and in again while a download completed under the first
      user is still on screen records that same download a second time,
      now with the second user signed in (the store files a record under
      the signed-in user's id, App.tsx:117). */
  lemma CompletedDownloadRecordedAgainOnUserChange(st: AppState, a: User, b: User, inc: real)
    requires Inv(st) && st.user == Some(a) && IsDownloading(st.downloads)
    requires 2.0 <= inc < 7.0 && st.downloads.download.value.progress + inc >= 100.0
    ensures var (s1, rec1) := TickDownload(st, inc);
      var (s2, rec2) := SetUser(s1, None);
      var (s3, rec3) := SetUser(s2, Some(b));
      && rec1.Some? && rec2.None? && rec3.Some?
      && rec1.value == rec3.value
      && s1.user == Some(a) && s3.user == Some(b)
  {
  }
}

=== FILE: dates.dfy ===
/** The part of ECMAScript's Date arithmetic that `Date.UTC(y, m, d)` uses
    (section 21.4.1 of ECMA-262): day numbers counted from 1 January 1970,
    proleptic Gregorian leap years, zero-based months that may overflow
    into the next year, two-digit years read as 19xx, and the TimeClip
    bound beyond which the result is NaN. Time values are integers of
    milliseconds. */
module Dates {
  import opened Options

  const MsPerDay: int := 86_400_000

  /** TimeClip's bound: 100 000 000 days either side of the epoch. */
  const MaxTimeValue: int := 8_640_000_000_000_000

  predicate IsLeapYear(y: int) {
    y % 4 == 0 && (y % 100 != 0 || y % 400 == 0)
  }

  function DaysInYear(y: int): int {
    if IsLeapYear(y) then 366 else 365
  }

  /** Days in the zero-based month `m` of year `y`. */
  function DaysInMonth(y: int, m: int): int
    requires 0 <= m < 12
  {
    if m == 1 then (if IsLeapYear(y) then 29 else 28)
    else if m == 3 || m == 5 || m == 8 || m == 10 then 30
    else 31
  }

  /** Days in the months of year `y` before the zero-based month `m`. */
  function DaysBeforeMonth(y: int, m: int): int
    requires 0 <= m <= 12
  {
    if m == 0 then 0 else DaysBeforeMonth(y, m - 1) + DaysInMonth(y, m - 1)
  }

  /** ECMAScript DayFromYear: the day number of 1 January of year `y`
      (Dafny's `/` on a positive divisor is the floor the standard uses). */
  function DayFromYear(y: int): int {
    365 * (y - 1970) + (y - 1969) / 4 - (y - 1901) / 100 + (y - 1601) / 400
  }

  /** ECMAScript MakeDay for integral arguments: the month overflows into
      the year and the date may lie outside the month. */
  function MakeDay(year: int, month: int, date: int): int {
    var ym := year + month / 12;
    var mn := month % 12;
    DayFromYear(ym) + DaysBeforeMonth(ym, mn) + date - 1
  }

  /** `Date.UTC(year, month, date)` for integral arguments: a year from 0 to
      99 means 1900 + year, and a time value beyond TimeClip's bound is NaN
      (`None`). */
  function DateUtc(year: int, month: int, date: int): (t: Option<int>)
    ensures t.Some? ==> -MaxTimeValue <= t.value <= MaxTimeValue
    ensures t.Some? ==> t.value % MsPerDay == 0
  {
    var y := if 0 <= year <= 99 then 1900 + year else year;
    var day := MakeDay(y, month, date);
    WholeDays(day);
    var ms := day * MsPerDay;
    if -MaxTimeValue <= ms <= MaxTimeValue then Some(ms) else None
  }

  /** A whole number of days is a whole multiple of a day's milliseconds. */
  lemma WholeDays(day: int)
    ensures (day * MsPerDay) % MsPerDay == 0
  {
  }

  /** A calendar date with a one-based month and a day inside that month. */
  predicate IsCalendarDate(y: int, m: int, d: int) {
    1 <= m <= 12 && 1 <= d <= DaysInMonth(y, m - 1)
  }

  /** Lexicographic order on (year, month, day). */
  predicate CalendarBefore(y1: int, m1: int, d1: int, y2: int, m2: int, d2: int) {
    y1 < y2 || (y1 == y2 && (m1 < m2 || (m1 == m2 && d1 < d2)))
  }

  // ---------------------------------------------------------------------
  // facts about the calendar arithmetic

  /** One year further on, DayFromYear has advanced by that year's length. */
  lemma DayFromYearStep(y: int)
    ensures DayFromYear(y + 1) == DayFromYear(y) + DaysInYear(y)
  {
    LeapDayStep(y);
    CenturyStep(y);
    QuadCenturyStep(y);
    YearLengthSum(y, (y - 1969) / 4, (y - 1901) / 100, (y - 1601) / 400);
  }

  /** The linear core of DayFromYearStep, with the three floor quotients
      of year `y` as plain numbers. */
  lemma YearLengthSum(y: int, a: int, c: int, q: int)
    ensures 365 * (y + 1 - 1970) + (a + Ind(y % 4 == 0)) - (c + Ind(y % 100 == 0)) + (q + Ind(y % 400 == 0))
            == 365 * (y - 1970) + a - c + q + DaysInYear(y)
  {
    assert DaysInYear(y) == 365 + Ind(y % 4 == 0) - Ind(y % 100 == 0) + Ind(y % 400 == 0);
  }

  /** 1 for true, 0 for false. */
  function Ind(b: bool): int {
    if b then 1 else 0
  }

  /** The floor quotients in DayFromYear rise by one exactly when the year
      is a multiple of 4, 100 or 400. */
  lemma LeapDayStep(y: int)
    ensures (y + 1 - 1969) / 4 == (y - 1969) / 4 + Ind(y % 4 == 0)
  {
  }

  lemma CenturyStep(y: int)
    ensures (y + 1 - 1901) / 100 == (y - 1901) / 100 + Ind(y % 100 == 0)
  {
  }

  lemma QuadCenturyStep(y: int)
    ensures (y + 1 - 1601) / 400 == (y - 1601) / 400 + Ind(y % 400 == 0)
  {
  }

  /** The twelve months fill the year exactly. */
  lemma MonthsFillYear(y: int)
    ensures DaysBeforeMonth(y, 12) == DaysInYear(y)
  {
    var feb := if IsLeapYear(y) then 29 else 28;
    assert DaysBeforeMonth(y, 1) == 31;
    assert DaysBeforeMonth(y, 2) == 31 + feb;
    assert DaysBeforeMonth(y, 3) == 62 + feb;
    assert DaysBeforeMonth(y, 4) == 92 + feb;
    assert DaysBeforeMonth(y, 5) == 123 + feb;
    assert DaysBeforeMonth(y, 6) == 153 + feb;
    assert DaysBeforeMonth(y, 7) == 184 + feb;
    assert DaysBeforeMonth(y, 8) == 215 + feb;
    assert DaysBeforeMonth(y, 9) == 245 + feb;
    assert DaysBeforeMonth(y, 10) == 276 + feb;
    assert DaysBeforeMonth(y, 11) == 306 + feb;
  }

  /** Every day of the year lies before the next year's first day. */
  lemma {:induction false} DayFromYearMonotone(y1: int, y2: int)
    requires y1 < y2
    ensures DayFromYear(y1) + DaysInYear(y1) <= DayFromYear(y2)
    decreases y2 - y1
  {
    DayFromYearStep(y1);
    if y1 + 1 < y2 {
      DayFromYearMonotone(y1 + 1, y2);
    }
  }

  lemma {:induction false} DaysBeforeMonthMonotone(y: int, m1: int, m2: int)
    requires 0 <= m1 < m2 <= 12
    ensures DaysBeforeMonth(y, m1) + DaysInMonth(y, m1) <= DaysBeforeMonth(y, m2)
    decreases m2 - m1
  {
    if m1 + 1 < m2 {
      DaysBeforeMonthMonotone(y, m1 + 1, m2);
    }
  }

  lemma {:induction false} DaysBeforeMonthNonNegative(y: int, m: int)
    requires 0 <= m <= 12
    ensures DaysBeforeMonth(y, m) >= 0
  {
    if m > 0 {
      DaysBeforeMonthNonNegative(y, m - 1);
    }
  }

  /** The day number of a calendar date: the year's first day, the days of
      the earlier months, and the date within the month. */
  lemma MakeDayOfDate(y: int, m: int, d: int)
    requires IsCalendarDate(y, m, d)
    ensures MakeDay(y, m - 1, d) == DayFromYear(y) + DaysBeforeMonth(y, m - 1) + d - 1
  {
    assert (m - 1) / 12 == 0 && (m - 1) % 12 == m - 1;
  }

  /** The day number of a calendar date lies inside its year. */
  lemma DayWithinYear(y: int, m: int, d: int)
    requires IsCalendarDate(y, m, d)
    ensures DayFromYear(y) <= MakeDay(y, m - 1, d) < DayFromYear(y) + DaysInYear(y)
  {
    MakeDayOfDate(y, m, d);
    DaysBeforeMonthNonNegative(y, m - 1);
    DaysBeforeMonthMonotone(y, m - 1, 12);
    MonthsFillYear(y);
  }

  /** Within one year, day numbers are ordered like (month, day). */
  lemma SameYearOrder(y: int, m1: int, d1: int, m2: int, d2: int)
    requires IsCalendarDate(y, m1, d1) && IsCalendarDate(y, m2, d2)
    ensures MakeDay(y, m1 - 1, d1) < MakeDay(y, m2 - 1, d2) <==> m1 < m2 || (m1 == m2 && d1 < d2)
  {
    MakeDayOfDate(y, m1, d1);
    MakeDayOfDate(y, m2, d2);
    MonthOrder(y, m1, d1, m2, d2);
  }

  /** Days counted from the start of the year are ordered like
      (month, day). */
  lemma MonthOrder(y: int, m1: int, d1: int, m2: int, d2: int)
    requires IsCalendarDate(y, m1, d1) && IsCalendarDate(y, m2, d2)
    ensures DaysBeforeMonth(y, m1 - 1) + d1 < DaysBeforeMonth(y, m2 - 1) + d2
            <==> m1 < m2 || (m1 == m2 && d1 < d2)
  {
    if m1 < m2 {
      DaysBeforeMonthMonotone(y, m1 - 1, m2 - 1);
    } else if m2 < m1 {
      DaysBeforeMonthMonotone(y, m2 - 1, m1 - 1);
    }
  }

  /** Day numbers of calendar dates are ordered like the dates themselves. */
  lemma DayOrderMatchesCalendar(y1: int, m1: int, d1: int, y2: int, m2: int, d2: int)
    requires IsCalendarDate(y1, m1, d1) && IsCalendarDate(y2, m2, d2)
    ensures MakeDay(y1, m1 - 1, d1) < MakeDay(y2, m2 - 1, d2)
            <==> CalendarBefore(y1, m1, d1, y2, m2, d2)
  {
    DayWithinYear(y1, m1, d1);
    DayWithinYear(y2, m2, d2);
    if y1 < y2 {
      DayFromYearMonotone(y1, y2);
    } else if y2 < y1 {
      DayFromYearMonotone(y2, y1);
    } else {
      SameYearOrder(y1, m1, d1, m2, d2);
    }
  }

  /** Years from 100 up to 200000 are taken literally and stay well inside
      TimeClip's bound. */
  lemma DateUtcDefined(y: int, m: int, d: int)
    requires IsCalendarDate(y, m, d) && 100 <= y <= 200_000
    ensures DateUtc(y, m - 1, d) == Some(MakeDay(y, m - 1, d) * MsPerDay)
  {
    DayWithinYear(y, m, d);
    var day := MakeDay(y, m - 1, d);
    assert -800_000 <= day <= 73_000_000;
  }

  /** For calendar dates in years 100 to 200000, Date.UTC orders its
      results like the dates it was given. */
  lemma DateUtcOrderMatchesCalendar(y1: int, m1: int, d1: int, y2: int, m2: int, d2: int)
    requires IsCalendarDate(y1, m1, d1) && 100 <= y1 <= 200_000
    requires IsCalendarDate(y2, m2, d2) && 100 <= y2 <= 200_000
    ensures DateUtc(y1, m1 - 1, d1).Some? && DateUtc(y2, m2 - 1, d2).Some?
    ensures DateUtc(y1, m1 - 1, d1).value < DateUtc(y2, m2 - 1, d2).value
            <==> CalendarBefore(y1, m1, d1, y2, m2, d2)
  {
    DateUtcDefined(y1, m1, d1);
    DateUtcDefined(y2, m2, d2);
    DayOrderMatchesCalendar(y1, m1, d1, y2, m2, d2);
  }

  /** Two distinct whole-day instants lie at least a day apart. */
  lemma NextWholeDay(t1: int, t2: int)
    requires t1 % MsPerDay == 0 && t2 % MsPerDay == 0 && t1 < t2
    ensures t1 + MsPerDay <= t2
  {
    var k1, k2 := t1 / MsPerDay, t2 / MsPerDay;
    assert t1 == k1 * MsPerDay && t2 == k2 * MsPerDay;
    assert k1 < k2;
  }

  /** A year written with one or two digits is a year of the 1900s. */
  lemma TwoDigitYear(y: int, m: int, d: int)
    requires 0 <= y <= 99
    ensures DateUtc(y, m, d) == DateUtc(1900 + y, m, d)
  {
  }

  /** Date.UTC(2023, 9, 26), 26 October 2023, is 1698278400000. */
  lemma DateUtcExample()
    ensures DateUtc(2023, 9, 26) == Some(1_698_278_400_000)
  {
    assert DayFromYear(2023) == 19_358;
    MonthsFillYear(2023);
    assert DaysBeforeMonth(2023, 9) == 273;
    assert MakeDay(2023, 9, 26) == 19_656;
  }
}

=== FILE: lifecycle.dfy ===
/** The mock download of App.tsx as a state machine: the download shown in
    the progress toast (or none) together with whether the progress
    interval is running. Timers become events: `Tick` is one firing of the
    200 ms interval, `TimedClear` the 3000 ms reset scheduled after a
    terminal status. The random increment of a tick is a parameter in
    [2, 7), the range `Math.random() * 5 + 2` covers. */
module DownloadLifecycle {
  import opened Options
  import opened Types

  datatype DownloadState = DownloadState(download: Option<Download>, ticking: bool)

  /** No download shown and no interval running: the initial state. */
  const Idle: DownloadState := DownloadState(None, false)

  predicate IsDownloading(s: DownloadState) {
    s.download.Some? && s.download.value.status == Downloading
  }

  predicate IsTerminal(status: Status) {
    status == Completed || status == Cancelled || status == Error
  }

  /** What every reachable state satisfies: the interval runs exactly while
      the status is `downloading`; progress is a percentage, 100 once
      completed and below 100 while downloading; and no handler ever sets
      the `error` status. */
  predicate Valid(s: DownloadState) {
    && (s.ticking <==> IsDownloading(s))
    && (s.download.Some? ==>
          var d := s.download.value;
          && 0.0 <= d.progress <= 100.0
          && (d.status == Completed ==> d.progress == 100.0)
          && (d.status == Downloading ==> d.progress < 100.0)
          && d.status != Error)
  }

  /** App.tsx handleDownloadStart: refused without video info and while any
      download is shown, whatever its status; otherwise a download of the
      chosen format for the video's title starts at 0 % and the interval
      begins. */
  function Start(s: DownloadState, video: Option<VideoInfo>, format: DownloadFormat): (r: DownloadState)
    ensures video.None? || s.download.Some? ==> r == s
    ensures video.Some? && s.download.None? ==>
      && r.ticking
      && r.download == Some(Download(format, video.value.title, 0.0, Downloading))
    ensures Valid(s) ==> Valid(r)
  {
    if video.None? || s.download.Some? then s
    else DownloadState(Some(Download(format, video.value.title, 0.0, Downloading)), true)
  }

  /** One firing of the interval (App.tsx:85-96). Without a running
      interval nothing fires. With no download shown the interval stops.
      Otherwise the increment is added; reaching 100 pins progress at 100,
      completes the download and stops the interval; below 100 only the
      progress changes. */
  function Tick(s: DownloadState, inc: real): (r: DownloadState)
    requires 2.0 <= inc < 7.0
    ensures !s.ticking ==> r == s
    ensures s.ticking && s.download.None? ==> r == Idle
    ensures s.ticking && s.download.Some? ==>
      var d := s.download.value;
      && r.download.Some?
      && r.download.value.format == d.format
      && r.download.value.videoTitle == d.videoTitle
      && (d.progress + inc >= 100.0 ==>
            r.download.value.progress == 100.0 && r.download.value.status == Completed && !r.ticking)
      && (d.progress + inc < 100.0 ==>
            r.download.value.progress == d.progress + inc && r.download.value.status == d.status && r.ticking)
    ensures Valid(s) && s.download.Some? && r.download.Some? ==>
      s.download.value.progress <= r.download.value.progress <= 100.0
    ensures Valid(s) ==> Valid(r)
  {
    if !s.ticking then s
    else match s.download
      case None => Idle
      case Some(d) =>
        var p := d.progress + inc;
        if p >= 100.0 then DownloadState(Some(d.(progress := 100.0, status := Completed)), false)
        else DownloadState(Some(d.(progress := p)), true)
  }

  /** App.tsx handleDownloadCancel: the interval stops and a shown download
      turns `cancelled` with everything else kept; with none shown nothing
      is shown afterwards. */
  function Cancel(s: DownloadState): (r: DownloadState)
    ensures !r.ticking
    ensures s.download.None? ==> r.download.None?
    ensures s.download.Some? ==>
      && r.download.Some?
      && r.download.value.status == Cancelled
      && r.download.value.(status := s.download.value.status) == s.download.value
    ensures Valid(s) ==> Valid(r)
  {
    DownloadState(if s.download.Some? then Some(s.download.value.(status := Cancelled)) else None, false)
  }

  /** Whether the reset timer is pending (App.tsx:123-128): a shown download
      in a terminal status schedules one; `downloading` schedules none. */
  function ClearScheduled(s: DownloadState): (scheduled: bool)
    ensures Valid(s) ==> (scheduled <==> s.download.Some? && !s.ticking)
  {
    s.download.Some? && IsTerminal(s.download.value.status)
  }

  /** The reset timer fires: the toast disappears. */
  function TimedClear(s: DownloadState): (r: DownloadState)
    requires ClearScheduled(s)
    ensures r.download.None? && r.ticking == s.ticking
    ensures Valid(s) ==> r == Idle
  {
    DownloadState(None, s.ticking)
  }

  /** The record the terminal-status effect writes to the signed-in user's
      history (App.tsx:108-120): only for a completed download and only
      with a user present, carrying that download's title and format. */
  function HistoryRecordFor(s: DownloadState, user: Option<User>): (rec: Option<HistoryRecord>)
    ensures rec.Some? <==> user.Some? && s.download.Some? && s.download.value.status == Completed
    ensures rec.Some? ==> rec.value.videoTitle == s.download.value.videoTitle
                          && rec.value.format == s.download.value.format
  {
    if user.Some? && s.download.Some? && s.download.value.status == Completed then
      Some(HistoryRecord(s.download.value.videoTitle, s.download.value.format))
    else None
  }

  // ---------------------------------------------------------------------
  // runs of ticks

  predicate IncrementsInRange(incs: seq<real>) {
    forall i :: 0 <= i < |incs| ==> 2.0 <= incs[i] < 7.0
  }

  /** Dropping the first firing keeps the rest of the increments in range. */
  lemma IncrementsTail(incs: seq<real>)
    requires IncrementsInRange(incs) && |incs| > 0
    ensures IncrementsInRange(incs[1..])
  {
    forall i | 0 <= i < |incs[1..]| ensures 2.0 <= incs[1..][i] < 7.0 {
      assert incs[1..][i] == incs[i + 1];
    }
  }

  function Sum(incs: seq<real>): real {
    if |incs| == 0 then 0.0 else incs[0] + Sum(incs[1..])
  }

  /** The state after the interval fires once per increment. */
  function RunTicks(s: DownloadState, incs: seq<real>): DownloadState
    requires IncrementsInRange(incs)
    decreases |incs|
  {
    if |incs| == 0 then s else RunTicks(Tick(s, incs[0]), incs[1..])
  }

  /** n increments from [2, 7) add up to at least 2n and, when there is at
      least one, to less than 7n. */
  lemma {:induction false} SumBounds(incs: seq<real>)
    requires IncrementsInRange(incs)
    ensures 2.0 * (|incs| as real) <= Sum(incs)
    ensures |incs| > 0 ==> Sum(incs) < 7.0 * (|incs| as real)
  {
    if |incs| > 0 {
      IncrementsTail(incs);
      SumBounds(incs[1..]);
    }
  }

  /** Once the interval has stopped, further firings change nothing. */
  lemma {:induction false} RunTicksStopped(s: DownloadState, incs: seq<real>)
    requires IncrementsInRange(incs) && !s.ticking
    ensures RunTicks(s, incs) == s
  {
    if |incs| > 0 {
      IncrementsTail(incs);
      RunTicksStopped(s, incs[1..]);
    }
  }

  /** From a running download, a run of ticks leaves the running sum of the
      increments as progress while it stays below 100, and otherwise ends
      completed at exactly 100 with the interval stopped. */
  lemma {:induction false} TickRunOutcome(s: DownloadState, incs: seq<real>)
    requires Valid(s) && IsDownloading(s) && IncrementsInRange(incs)
    ensures var d := s.download.value;
      RunTicks(s, incs) ==
        if d.progress + Sum(incs) < 100.0 then DownloadState(Some(d.(progress := d.progress + Sum(incs))), true)
        else DownloadState(Some(d.(progress := 100.0, status := Completed)), false)
    decreases |incs|
  {
    var d := s.download.value;
    if |incs| > 0 {
      IncrementsTail(incs);
      var t := Tick(s, incs[0]);
      SumBounds(incs[1..]);
      if d.progress + incs[0] >= 100.0 {
        RunTicksStopped(t, incs[1..]);
      } else {
        TickRunOutcome(t, incs[1..]);
        assert t.download.value.(progress := t.download.value.progress + Sum(incs[1..]))
            == d.(progress := d.progress + Sum(incs));
      }
    }
  }

  /** Fifty firings always finish a download started from 0 %. */
  lemma CompletesWithinFiftyTicks(video: VideoInfo, format: DownloadFormat, incs: seq<real>)
    requires IncrementsInRange(incs) && |incs| >= 50
    ensures RunTicks(Start(Idle, Some(video), format), incs)
            == DownloadState(Some(Download(format, video.title, 100.0, Completed)), false)
  {
    var s := Start(Idle, Some(video), format);
    SumBounds(incs);
    TickRunOutcome(s, incs);
  }

  /** Fourteen firings or fewer never finish a download started from 0 %:
      at least fifteen are needed. */
  lemma NoCompletionBeforeFifteenTicks(video: VideoInfo, format: DownloadFormat, incs: seq<real>)
    requires IncrementsInRange(incs) && |incs| <= 14
    ensures var r := RunTicks(Start(Idle, Some(video), format), incs);
      IsDownloading(r) && r.ticking && r.download.value.progress == Sum(incs)
  {
    var s := Start(Idle, Some(video), format);
    SumBounds(incs);
    TickRunOutcome(s, incs);
  }

  /** After a cancel, firings change nothing: the cancelled download keeps
      the progress it had. */
  lemma CancelFreezes(s: DownloadState, incs: seq<real>)
    requires IncrementsInRange(incs)
    ensures RunTicks(Cancel(s), incs) == Cancel(s)
  {
    RunTicksStopped(Cancel(s), incs);
  }
}

=== FILE: options.dfy ===
/** The optional value used wherever the source has `T | null` or a value
    that JavaScript may turn into NaN. */
module Options {

  datatype Option<+T> = None | Some(value: T)
}

=== FILE: refine.dfy ===
/** The refine panel of a smart-search result (components/RefineSearch.tsx):
    the quick suggestions built from the shown video's duration and upload
    date, the free-text submit and the quick actions. The instant "one year
    ago" that the panel reads from the clock is a parameter, as a time value
    in milliseconds. */
module Refine {
  import opened Options
  import opened Types
  import opened Text
  import opened Dates

  /** One quick action: the chip's label and the instruction it sends. */
  datatype Suggestion = Suggestion(caption: string, prompt: string)

  const Similar: Suggestion := Suggestion("Outro parecido", "Encontre outro vídeo parecido")
  const Shorter: Suggestion := Suggestion("Mais curto", "Mostre-me uma versão mais curta")
  const Longer: Suggestion := Suggestion("Mais longo", "Encontre uma versão mais longa")
  const Recent: Suggestion := Suggestion("Mais recente", "Encontre um vídeo mais recente sobre o mesmo assunto")

  /** At most this many suggestions are shown. */
  const MaxSuggestions: nat := 3

  // ---------------------------------------------------------------------
  // reading the video's metadata

  /** The duration in minutes (components/RefineSearch.tsx:34-40): the text
      is split at `:` and each piece read with `Number`. Three pieces are
      hours, minutes and seconds, two are minutes and seconds, any other
      count gives 0. A piece that is not a number makes the result NaN,
      written None. */
  function DurationMinutes(duration: string): (minutes: Option<real>)
    ensures |Split(duration, ':')| != 2 && |Split(duration, ':')| != 3 ==> minutes == Some(0.0)
    ensures var parts := Split(duration, ':');
      |parts| == 2 ==> (minutes.None? <==> NumberOf(parts[0]).None? || NumberOf(parts[1]).None?)
    ensures var parts := Split(duration, ':');
      |parts| == 3 ==>
        (minutes.None? <==> NumberOf(parts[0]).None? || NumberOf(parts[1]).None? || NumberOf(parts[2]).None?)
  {
    MinutesOf(Split(duration, ':'))
  }

  /** Minutes from the pieces of a duration, each read with `Number`:
      hours, minutes and seconds; minutes and seconds; or 0 for any other
      count. NaN spreads. */
  function MinutesOf(parts: seq<string>): (minutes: Option<real>)
    ensures |parts| != 2 && |parts| != 3 ==> minutes == Some(0.0)
    ensures |parts| == 2 ==> (minutes.None? <==> NumberOf(parts[0]).None? || NumberOf(parts[1]).None?)
    ensures |parts| == 3 ==>
      (minutes.None? <==> NumberOf(parts[0]).None? || NumberOf(parts[1]).None? || NumberOf(parts[2]).None?)
  {
    if |parts| == 3 then
      var h, m, s := NumberOf(parts[0]), NumberOf(parts[1]), NumberOf(parts[2]);
      if h.None? || m.None? || s.None? then None
      else Some((h.value as real) * 60.0 + (m.value as real) + (s.value as real) / 60.0)
    else if |parts| == 2 then
      var m, s := NumberOf(parts[0]), NumberOf(parts[1]);
      if m.None? || s.None? then None
      else Some((m.value as real) + (s.value as real) / 60.0)
    else Some(0.0)
  }

  /** The upload instant (components/RefineSearch.tsx:49-50): the date is
      split at `-`, each piece read with `Number`, and `Date.UTC(year,
      month - 1, day)` taken. A missing piece or one that is not a number
      makes the instant NaN, written None; pieces after the third are
      ignored. */
  function UploadInstant(uploadDate: string): (t: Option<int>)
    ensures |Split(uploadDate, '-')| < 3 ==> t.None?
    ensures var parts := Split(uploadDate, '-');
      |parts| >= 3 && (NumberOf(parts[0]).None? || NumberOf(parts[1]).None? || NumberOf(parts[2]).None?) ==> t.None?
    ensures t.Some? ==> t.value % MsPerDay == 0
  {
    DateOf(Split(uploadDate, '-'))
  }

  /** `Date.UTC(Number(parts[0]), Number(parts[1]) - 1, Number(parts[2]))`,
      NaN when a piece is missing or not a number. */
  function DateOf(parts: seq<string>): (t: Option<int>)
    ensures |parts| < 3 ==> t.None?
    ensures |parts| >= 3 && (NumberOf(parts[0]).None? || NumberOf(parts[1]).None? || NumberOf(parts[2]).None?) ==> t.None?
    ensures t.Some? ==> t.value % MsPerDay == 0
  {
    if |parts| < 3 then None
    else DateOfNumbers(NumberOf(parts[0]), NumberOf(parts[1]), NumberOf(parts[2]))
  }

  /** `Date.UTC(y, m - 1, d)` on numbers that may be NaN. */
  function DateOfNumbers(y: Option<int>, m: Option<int>, d: Option<int>): (t: Option<int>)
    ensures y.None? || m.None? || d.None? ==> t.None?
    ensures t.Some? ==> t.value % MsPerDay == 0
  {
    if y.None? || m.None? || d.None? then None
    else DateUtc(y.value, m.value - 1, d.value)
  }

  /** The duration rule (components/RefineSearch.tsx:42-46): longer than ten
      minutes suggests a shorter video, strictly between zero and five
      minutes a longer one, anything else (NaN included) neither. */
  function DurationSuggestion(minutes: Option<real>): (s: Option<Suggestion>)
    ensures s == Some(Shorter) <==> minutes.Some? && minutes.value > 10.0
    ensures s == Some(Longer) <==> minutes.Some? && 0.0 < minutes.value < 5.0
    ensures s.None? <==> minutes.None? || minutes.value <= 0.0 || 5.0 <= minutes.value <= 10.0
  {
    match minutes
    case None => None
    case Some(m) =>
      if m > 10.0 then Some(Shorter)
      else if m > 0.0 && m < 5.0 then Some(Longer)
      else None
  }

  /** The date rule (components/RefineSearch.tsx:55): a video uploaded
      strictly before the cutoff is old enough to ask for a newer one; a NaN
      instant compares false. */
  predicate SuggestsRecent(uploadDate: string, cutoff: int): (recent: bool)
    ensures var parts := Split(uploadDate, '-');
      |parts| < 3 || NumberOf(parts[0]).None? || NumberOf(parts[1]).None? || NumberOf(parts[2]).None? ==> !recent
    ensures recent ==> -MaxTimeValue < cutoff
  {
    var t := UploadInstant(uploadDate);
    t.Some? && t.value < cutoff
  }

  // ---------------------------------------------------------------------
  // de-duplication by label

  /** The labels that occur in `items`. */
  function Labels(items: seq<Suggestion>): set<string> {
    if |items| == 0 then {} else Labels(items[..|items| - 1]) + {items[|items| - 1].caption}
  }

  predicate UniqueLabels(items: seq<Suggestion>) {
    forall i, j :: 0 <= i < j < |items| ==> items[i].caption != items[j].caption
  }

  /** Where the label `caption` sits in `items`, or -1. */
  function IndexOfLabel(items: seq<Suggestion>, caption: string): (k: int)
    ensures -1 <= k < |items|
    ensures k >= 0 ==> items[k].caption == caption
    ensures k >= 0 ==> forall i :: k < i < |items| ==> items[i].caption != caption
    ensures k < 0 ==> forall i :: 0 <= i < |items| ==> items[i].caption != caption
  {
    if |items| == 0 then -1
    else if items[|items| - 1].caption == caption then |items| - 1
    else IndexOfLabel(items[..|items| - 1], caption)
  }

  /** The suggestions that occur in `items`. */
  function Entries(items: seq<Suggestion>): set<Suggestion> {
    if |items| == 0 then {} else Entries(items[..|items| - 1]) + {items[|items| - 1]}
  }

  /** Giving an entry a new value under the same label keeps the labels. */
  lemma {:induction false} LabelsUpdate(items: seq<Suggestion>, k: nat, s: Suggestion)
    requires k < |items| && items[k].caption == s.caption
    ensures Labels(items[k := s]) == Labels(items)
    ensures Entries(items[k := s]) <= Entries(items) + {s}
  {
    var n := |items|;
    var r := items[k := s];
    if k < n - 1 {
      assert r[..n - 1] == items[..n - 1][k := s];
      LabelsUpdate(items[..n - 1], k, s);
    } else {
      assert r[..n - 1] == items[..n - 1];
    }
  }

  lemma {:induction false} LabelsContain(items: seq<Suggestion>, k: nat)
    requires k < |items|
    ensures items[k].caption in Labels(items)
  {
    if k < |items| - 1 {
      LabelsContain(items[..|items| - 1], k);
    }
  }

  /** `Map.prototype.set` on entries kept in insertion order: an existing
      label keeps its place and takes the new value, a new label goes to the
      end. */
  function Upsert(acc: seq<Suggestion>, s: Suggestion): (r: seq<Suggestion>)
    ensures |acc| <= |r| <= |acc| + 1
    ensures forall i :: 0 <= i < |acc| ==> r[i].caption == acc[i].caption
    ensures Labels(r) == Labels(acc) + {s.caption}
    ensures Entries(r) <= Entries(acc) + {s}
    ensures UniqueLabels(acc) ==> UniqueLabels(r)
    ensures (forall i :: 0 <= i < |acc| ==> acc[i].caption != s.caption) ==> r == acc + [s]
    ensures s in r
    ensures forall i :: 0 <= i < |r| && r[i].caption != s.caption ==> i < |acc| && r[i] == acc[i]
    ensures UniqueLabels(acc) ==> forall i :: 0 <= i < |r| && r[i].caption == s.caption ==> r[i] == s
  {
    var k := IndexOfLabel(acc, s.caption);
    if k >= 0 then
      LabelsUpdate(acc, k, s);
      LabelsContain(acc, k);
      var r := acc[k := s];
      assert r[k] == s;
      assert UniqueLabels(acc) ==> forall i :: 0 <= i < |r| && i != k ==> r[i].caption != s.caption by {
        if UniqueLabels(acc) {
          forall i | 0 <= i < |r| && i != k ensures r[i].caption != s.caption {
            assert r[i] == acc[i];
          }
        }
      }
      r
    else
      var r := acc + [s];
      assert r[..|acc|] == acc;
      assert r[|acc|] == s;
      r
  }

  /** `Array.from(new Map(items.map(s => [s.caption, s])).values())`: one
      entry per label, in the order labels first occur, each holding the
      last suggestion with that label. */
  function DedupByLabel(items: seq<Suggestion>): (r: seq<Suggestion>)
    ensures UniqueLabels(r)
    ensures Labels(r) == Labels(items)
    ensures |r| <= |items|
    ensures Entries(r) <= Entries(items)
    ensures forall j :: 0 <= j < |r| ==>
      0 <= IndexOfLabel(items, r[j].caption) && r[j] == items[IndexOfLabel(items, r[j].caption)]
  {
    if |items| == 0 then []
    else
      var init := items[..|items| - 1];
      var last := items[|items| - 1];
      var d := DedupByLabel(init);
      UpsertKeepsLast(init, d, last);
      assert init + [last] == items;
      Upsert(d, last)
  }

  /** One step of de-duplication: when every entry of `d` is the last entry
      of `init` with its label, every entry of `Upsert(d, last)` is the last
      entry of `init + [last]` with its label. */
  lemma UpsertKeepsLast(init: seq<Suggestion>, d: seq<Suggestion>, last: Suggestion)
    requires UniqueLabels(d)
    requires forall j :: 0 <= j < |d| ==>
      0 <= IndexOfLabel(init, d[j].caption) && d[j] == init[IndexOfLabel(init, d[j].caption)]
    ensures var items := init + [last]; var r := Upsert(d, last);
      forall j :: 0 <= j < |r| ==>
        0 <= IndexOfLabel(items, r[j].caption) && r[j] == items[IndexOfLabel(items, r[j].caption)]
  {
    var items := init + [last];
    var r := Upsert(d, last);
    assert items[..|items| - 1] == init;
    forall j | 0 <= j < |r|
      ensures 0 <= IndexOfLabel(items, r[j].caption) && r[j] == items[IndexOfLabel(items, r[j].caption)]
    {
      if r[j].caption == last.caption {
        assert IndexOfLabel(items, last.caption) == |items| - 1;
      } else {
        assert r[j] == d[j];
        assert IndexOfLabel(items, r[j].caption) == IndexOfLabel(init, r[j].caption);
      }
    }
  }

  /** De-duplicating a list whose labels are already distinct changes
      nothing. */
  lemma {:induction false} DedupKeepsDistinct(items: seq<Suggestion>)
    requires UniqueLabels(items)
    ensures DedupByLabel(items) == items
  {
    if |items| > 0 {
      var init := items[..|items| - 1];
      var last := items[|items| - 1];
      UniqueLabelsInit(items);
      DedupKeepsDistinct(init);
      UpsertFresh(init, last);
      assert init + [last] == items;
    }
  }

  /** Setting a label none of `acc` carries appends the entry. */
  lemma UpsertFresh(acc: seq<Suggestion>, s: Suggestion)
    requires forall i :: 0 <= i < |acc| ==> acc[i].caption != s.caption
    ensures Upsert(acc, s) == acc + [s]
  {
  }

  /** Dropping the last entry of a list with distinct labels leaves a list
      with distinct labels, none of them the dropped entry's. */
  lemma UniqueLabelsInit(items: seq<Suggestion>)
    requires |items| > 0 && UniqueLabels(items)
    ensures UniqueLabels(items[..|items| - 1])
    ensures forall i :: 0 <= i < |items| - 1 ==> items[i].caption != items[|items| - 1].caption
  {
    var init := items[..|items| - 1];
    forall i, j | 0 <= i < j < |init| ensures init[i].caption != init[j].caption {
      assert init[i] == items[i] && init[j] == items[j];
    }
  }

  /** The labels of `items`, position by position. */
  function Captions(items: seq<Suggestion>): (cs: seq<string>)
    ensures |cs| == |items|
    ensures forall i :: 0 <= i < |items| ==> cs[i] == items[i].caption
  {
    seq(|items|, i requires 0 <= i < |items| => items[i].caption)
  }

  /** The labels of `items` in the order they first occur, each once. */
  function FirstLabels(items: seq<Suggestion>): seq<string> {
    if |items| == 0 then []
    else
      var f := FirstLabels(items[..|items| - 1]);
      var c := items[|items| - 1].caption;
      if c in f then f else f + [c]
  }

  /** Setting a label that is already present leaves the labels as they
      were, position by position. */
  lemma UpsertPresentCaptions(acc: seq<Suggestion>, s: Suggestion)
    requires s.caption in Captions(acc)
    ensures Captions(Upsert(acc, s)) == Captions(acc)
  {
    var k :| 0 <= k < |acc| && Captions(acc)[k] == s.caption;
    assert acc[k].caption == s.caption;
    assert IndexOfLabel(acc, s.caption) >= 0;
  }

  /** Setting a new label appends it. */
  lemma UpsertAbsentCaptions(acc: seq<Suggestion>, s: Suggestion)
    requires s.caption !in Captions(acc)
    ensures Captions(Upsert(acc, s)) == Captions(acc) + [s.caption]
  {
    forall i | 0 <= i < |acc| ensures acc[i].caption != s.caption {
      assert Captions(acc)[i] == acc[i].caption;
    }
    assert Upsert(acc, s) == acc + [s];
  }

  /** De-duplication keeps one entry per label, in the order the labels
      first occur. */
  lemma {:induction false} DedupKeepsFirstOccurrenceOrder(items: seq<Suggestion>)
    ensures Captions(DedupByLabel(items)) == FirstLabels(items)
  {
    if |items| > 0 {
      var init := items[..|items| - 1];
      var last := items[|items| - 1];
      DedupKeepsFirstOccurrenceOrder(init);
      assert DedupByLabel(items) == Upsert(DedupByLabel(init), last);
      if last.caption in FirstLabels(init) {
        UpsertPresentCaptions(DedupByLabel(init), last);
      } else {
        UpsertAbsentCaptions(DedupByLabel(init), last);
      }
    }
  }

  // ---------------------------------------------------------------------
  // the suggestion list

  /** `s.slice(0, n)`: the first `n` entries, or all of a shorter list. */
  function Slice(s: seq<Suggestion>, n: nat): (r: seq<Suggestion>)
    ensures |r| <= n && |r| <= |s| && r == s[..|r|]
    ensures |s| <= n ==> r == s
  {
    s[..if |s| <= n then |s| else n]
  }

  /** The list before de-duplication and truncation: "Outro parecido",
      then the duration suggestion if any, then "Mais recente" if the date
      rule holds. */
  function Candidates(duration: Option<Suggestion>, recent: bool): seq<Suggestion> {
    [Similar]
    + (if duration.Some? then [duration.value] else [])
    + (if recent then [Recent] else [])
  }

  /** The candidates have distinct labels and hold each suggestion exactly
      when its rule fired. */
  lemma CandidatesFacts(duration: Option<Suggestion>, recent: bool)
    requires duration == None || duration == Some(Shorter) || duration == Some(Longer)
    ensures var c := Candidates(duration, recent);
      && 1 <= |c| <= MaxSuggestions && c[0] == Similar && UniqueLabels(c)
      && (Shorter in c <==> duration == Some(Shorter))
      && (Longer in c <==> duration == Some(Longer))
      && (Recent in c <==> recent)
      && (forall x :: x in c ==> x == Similar || x == Shorter || x == Longer || x == Recent)
  {
    var c := Candidates(duration, recent);
    assert Similar.caption != Shorter.caption && Similar.caption != Longer.caption;
    assert Recent.caption != Shorter.caption && Recent.caption != Longer.caption;
    assert Similar.caption != Recent.caption;
    assert Shorter != Longer by {
      assert Shorter.caption[5] != Longer.caption[5];
    }
  }

  /** The `suggestions` memo (components/RefineSearch.tsx:28-61): nothing
      without a video; otherwise "Outro parecido" first, "Mais curto" for a
      video longer than ten minutes, "Mais longo" for one shorter than five
      minutes, "Mais recente" last for one uploaded before the cutoff,
      with distinct labels and at most three entries. */
  function Suggestions(video: Option<VideoInfo>, cutoff: int): (r: seq<Suggestion>)
    ensures video.None? ==> r == []
    ensures video.Some? ==> |r| >= 1 && r[0] == Similar
    ensures |r| <= MaxSuggestions && UniqueLabels(r)
    ensures video.Some? ==>
      var minutes := DurationMinutes(video.value.duration);
      && (Shorter in r <==> minutes.Some? && minutes.value > 10.0)
      && (Longer in r <==> minutes.Some? && 0.0 < minutes.value < 5.0)
      && (Recent in r <==> SuggestsRecent(video.value.uploadDate, cutoff))
    ensures !(Shorter in r && Longer in r)
    ensures Recent in r ==> r[|r| - 1] == Recent
    ensures forall x :: x in r ==> x == Similar || x == Shorter || x == Longer || x == Recent
  {
    if video.None? then []
    else
      var duration := DurationSuggestion(DurationMinutes(video.value.duration));
      var recent := SuggestsRecent(video.value.uploadDate, cutoff);
      var c := Candidates(duration, recent);
      CandidatesFacts(duration, recent);
      DedupKeepsDistinct(c);
      Slice(DedupByLabel(c), MaxSuggestions)
  }

  // ---------------------------------------------------------------------
  // sending instructions

  /** handleSubmit (components/RefineSearch.tsx:14-20): the trimmed text is
      sent, and the box emptied, only when something other than whitespace
      was typed and no refinement is running; otherwise the text stays. */
  function Submit(input: string, isRefining: bool): (res: (Option<string>, string))
    ensures var (sent, box) := res;
      && (sent.Some? <==> !isRefining && !AllSpace(input))
      && (sent.Some? ==> sent.value == Trim(input) && box == [])
      && (sent.Some? ==> |sent.value| > 0 && !IsJsSpace(sent.value[0]) && !IsJsSpace(sent.value[|sent.value| - 1]))
      && (sent.None? ==> box == input)
  {
    TrimEmptyIff(input);
    var t := Trim(input);
    if |t| > 0 && !isRefining then (Some(t), []) else (None, input)
  }

  /** handleQuickAction (components/RefineSearch.tsx:22-26): a chip's
      instruction is sent unchanged unless a refinement is running. */
  function QuickAction(prompt: string, isRefining: bool): (sent: Option<string>)
    ensures sent.Some? <==> !isRefining
    ensures sent.Some? ==> sent.value == prompt
  {
    if isRefining then None else Some(prompt)
  }

  // ---------------------------------------------------------------------
  // reading well-formed metadata

  /** A duration without any `:` counts as 0 minutes. */
  lemma DurationWithoutColon(duration: string)
    requires ':' !in duration
    ensures DurationMinutes(duration) == Some(0.0)
  {
    SplitNoSeparator(duration, ':');
  }

  /** Two pieces joined by `c` split back into the two. */
  lemma SplitTwo(a: string, b: string, c: char)
    requires c !in a && c !in b
    ensures Split(a + [c] + b, c) == [a, b]
  {
    assert Join([b], c) == b;
    assert Join([a, b], c) == a + [c] + b;
    SplitJoin([a, b], c);
  }

  /** Three pieces joined by `c` split back into the three. */
  lemma SplitThree(a: string, b: string, d: string, c: char)
    requires c !in a && c !in b && c !in d
    ensures Split(a + [c] + b + [c] + d, c) == [a, b, d]
  {
    assert Join([d], c) == d;
    assert Join([b, d], c) == b + [c] + d;
    assert [a, b, d][1..] == [b, d];
    assert Join([a, b, d], c) == a + [c] + (b + [c] + d);
    assert a + [c] + (b + [c] + d) == a + [c] + b + [c] + d;
    SplitJoin([a, b, d], c);
  }

  /** A duration that splits into pieces reading as M and S is M + S/60
      minutes. */
  lemma MinutesOfTwoPieces(duration: string, a: string, b: string, m: int, s: int)
    requires Split(duration, ':') == [a, b]
    requires NumberOf(a) == Some(m) && NumberOf(b) == Some(s)
    ensures DurationMinutes(duration) == Some((m as real) + (s as real) / 60.0)
  {
    MinutesOfTwo(Split(duration, ':'), m, s);
  }

  lemma MinutesOfTwo(parts: seq<string>, m: int, s: int)
    requires |parts| == 2
    requires NumberOf(parts[0]) == Some(m) && NumberOf(parts[1]) == Some(s)
    ensures MinutesOf(parts) == Some((m as real) + (s as real) / 60.0)
  {
  }

  /** A duration that splits into pieces reading as H, M and S is
      60 H + M + S/60 minutes. */
  lemma MinutesOfThreePieces(duration: string, a: string, b: string, c: string, h: int, m: int, s: int)
    requires Split(duration, ':') == [a, b, c]
    requires NumberOf(a) == Some(h) && NumberOf(b) == Some(m) && NumberOf(c) == Some(s)
    ensures DurationMinutes(duration) == Some((h as real) * 60.0 + (m as real) + (s as real) / 60.0)
  {
    MinutesOfThree(Split(duration, ':'), h, m, s);
  }

  lemma MinutesOfThree(parts: seq<string>, h: int, m: int, s: int)
    requires |parts| == 3
    requires NumberOf(parts[0]) == Some(h) && NumberOf(parts[1]) == Some(m) && NumberOf(parts[2]) == Some(s)
    ensures MinutesOf(parts) == Some((h as real) * 60.0 + (m as real) + (s as real) / 60.0)
  {
  }

  /** "M:SS" whose pieces read as the numbers M and S is M + S/60 minutes. */
  lemma DurationOfMinutesSeconds(a: string, b: string, m: int, s: int)
    requires ':' !in a && ':' !in b
    requires NumberOf(a) == Some(m) && NumberOf(b) == Some(s)
    ensures DurationMinutes(a + ":" + b) == Some((m as real) + (s as real) / 60.0)
  {
    SplitTwo(a, b, ':');
    assert a + ":" + b == a + [':'] + b;
    MinutesOfTwoPieces(a + ":" + b, a, b, m, s);
  }

  /** "H:MM:SS" whose pieces read as the numbers H, M and S is
      60 H + M + S/60 minutes. */
  lemma DurationOfHoursMinutesSeconds(a: string, b: string, c: string, h: int, m: int, s: int)
    requires ':' !in a && ':' !in b && ':' !in c
    requires NumberOf(a) == Some(h) && NumberOf(b) == Some(m) && NumberOf(c) == Some(s)
    ensures DurationMinutes(a + ":" + b + ":" + c)
            == Some((h as real) * 60.0 + (m as real) + (s as real) / 60.0)
  {
    SplitThree(a, b, c, ':');
    assert a + ":" + b + ":" + c == a + [':'] + b + [':'] + c;
    MinutesOfThreePieces(a + ":" + b + ":" + c, a, b, c, h, m, s);
  }

  /** A date that splits into pieces reading as Y, M and D is the instant
      Date.UTC(Y, M - 1, D). */
  lemma InstantOfThreePieces(date: string, a: string, b: string, c: string, y: int, m: int, d: int)
    requires Split(date, '-') == [a, b, c]
    requires NumberOf(a) == Some(y) && NumberOf(b) == Some(m) && NumberOf(c) == Some(d)
    ensures UploadInstant(date) == DateUtc(y, m - 1, d)
  {
    DateOfThree(Split(date, '-'), y, m, d);
  }

  lemma DateOfThree(parts: seq<string>, y: int, m: int, d: int)
    requires |parts| == 3
    requires NumberOf(parts[0]) == Some(y) && NumberOf(parts[1]) == Some(m) && NumberOf(parts[2]) == Some(d)
    ensures DateOf(parts) == DateUtc(y, m - 1, d)
  {
  }

  /** "Y-M-D" whose pieces read as the numbers Y, M and D is the instant
      Date.UTC(Y, M - 1, D). */
  lemma UploadInstantOfDate(a: string, b: string, c: string, y: int, m: int, d: int)
    requires '-' !in a && '-' !in b && '-' !in c
    requires NumberOf(a) == Some(y) && NumberOf(b) == Some(m) && NumberOf(c) == Some(d)
    ensures UploadInstant(a + "-" + b + "-" + c) == DateUtc(y, m - 1, d)
  {
    SplitThree(a, b, c, '-');
    assert a + "-" + b + "-" + c == a + ['-'] + b + ['-'] + c;
    InstantOfThreePieces(a + "-" + b + "-" + c, a, b, c, y, m, d);
  }

  /** `Date.UTC` reads only the first three pieces of a date: what follows
      them does not change the instant. */
  lemma DateOfIgnoresLaterPieces(parts: seq<string>)
    requires |parts| >= 3
    ensures DateOf(parts) == DateOf(parts[..3])
  {
    var p := parts[..3];
    assert p == [parts[0], parts[1], parts[2]];
    SameNumbers(parts, p);
  }

  /** Piece lists whose first three pieces read alike give one instant. */
  lemma SameNumbers(p: seq<string>, q: seq<string>)
    requires |p| >= 3 && |q| >= 3
    requires NumberOf(p[0]) == NumberOf(q[0]) && NumberOf(p[1]) == NumberOf(q[1]) && NumberOf(p[2]) == NumberOf(q[2])
    ensures DateOf(p) == DateOf(q)
  {
  }

  /** "Y-M-D-rest" gives the same instant as "Y-M-D", whatever the rest. */
  lemma UploadInstantIgnoresLaterPieces(a: string, b: string, c: string, rest: string)
    requires '-' !in a && '-' !in b && '-' !in c
    ensures UploadInstant(a + "-" + b + "-" + c + "-" + rest) == UploadInstant(a + "-" + b + "-" + c)
  {
    var long, short := a + "-" + b + "-" + c + "-" + rest, a + "-" + b + "-" + c;
    SplitThreeThenRest(a, b, c, rest, '-');
    assert long == a + ['-'] + b + ['-'] + c + ['-'] + rest;
    assert ([a, b, c] + Split(rest, '-'))[..3] == [a, b, c];
    SplitThree(a, b, c, '-');
    assert short == a + ['-'] + b + ['-'] + c;
    SameFirstThree(Split(long, '-'), Split(short, '-'));
  }

  /** Piece lists that agree on their first three pieces give one instant. */
  lemma SameFirstThree(p: seq<string>, q: seq<string>)
    requires |p| >= 3 && |q| == 3 && p[..3] == q
    ensures DateOf(p) == DateOf(q)
  {
    DateOfIgnoresLaterPieces(p);
  }

  /** For an upload date "Y-M-D" naming a calendar date and a cutoff that
      falls on the calendar day CY-CM-CD at any time of that day, "Mais
      recente" is offered exactly when the upload date comes strictly
      before the cutoff's day, or is that same day and the cutoff lies
      after its midnight. */
  lemma RecentIffEarlierDate(a: string, b: string, c: string, y: int, m: int, d: int,
                             cy: int, cm: int, cd: int, cutoff: int)
    requires '-' !in a && '-' !in b && '-' !in c
    requires NumberOf(a) == Some(y) && NumberOf(b) == Some(m) && NumberOf(c) == Some(d)
    requires IsCalendarDate(y, m, d) && 100 <= y <= 200_000
    requires IsCalendarDate(cy, cm, cd) && 100 <= cy <= 200_000
    requires var midnight := DateUtc(cy, cm - 1, cd);
      midnight.Some? && midnight.value <= cutoff < midnight.value + MsPerDay
    ensures SuggestsRecent(a + "-" + b + "-" + c, cutoff)
            <==> || CalendarBefore(y, m, d, cy, cm, cd)
                 || (y == cy && m == cm && d == cd && DateUtc(cy, cm - 1, cd).value < cutoff)
  {
    UploadInstantOfDate(a, b, c, y, m, d);
    DateUtcOrderMatchesCalendar(y, m, d, cy, cm, cd);
    DateUtcOrderMatchesCalendar(cy, cm, cd, y, m, d);
    var upload := DateUtc(y, m - 1, d).value;
    var midnight := DateUtc(cy, cm - 1, cd).value;
    if midnight < upload {
      NextWholeDay(midnight, upload);
    }
  }
}

=== FILE: text.dfy ===
/** The JavaScript string built-ins the core relies on, written out over
    `seq<char>`: `String.prototype.trim`, `split` on one character,
    `Number(str)` for the integer literals the core parses, the decimal
    rendering of an integer-valued number, and `toLowerCase`. */
module Text {
  import opened Options

  /** The WhiteSpace and LineTerminator code points of ECMA-262 (sections
      12.2 and 12.3): what `trim` strips from both ends and what `Number`
      ignores around a numeral. */
  predicate IsJsSpace(c: char) {
    || c == '\t' || c == '\n' || c == '\U{000B}' || c == '\U{000C}' || c == '\r'
    || c == ' ' || c == '\U{00A0}' || c == '\U{1680}'
    || ('\U{2000}' <= c <= '\U{200A}')
    || c == '\U{2028}' || c == '\U{2029}' || c == '\U{202F}' || c == '\U{205F}'
    || c == '\U{3000}' || c == '\U{FEFF}'
  }

  /** The LineTerminator code points: the characters a regular-expression
      `.` does not match when the `s` flag is absent. */
  predicate IsLineTerminator(c: char) {
    c == '\n' || c == '\r' || c == '\U{2028}' || c == '\U{2029}'
  }

  predicate IsDigit(c: char) {
    '0' <= c <= '9'
  }

  predicate AllDigits(s: string) {
    forall i :: 0 <= i < |s| ==> IsDigit(s[i])
  }

  // ---------------------------------------------------------------------
  // trim

  /** Every character of `s` is whitespace. */
  predicate AllSpace(s: string) {
    forall i :: 0 <= i < |s| ==> IsJsSpace(s[i])
  }

  /** Drops the leading whitespace: the result is the longest suffix of `s`
      that does not start with whitespace. */
  function TrimStart(s: string): (r: string)
    ensures |r| <= |s| && r == s[|s| - |r|..]
    ensures forall i :: 0 <= i < |s| - |r| ==> IsJsSpace(s[i])
    ensures |r| > 0 ==> !IsJsSpace(r[0])
  {
    if |s| > 0 && IsJsSpace(s[0]) then TrimStart(s[1..]) else s
  }

  /** Drops the trailing whitespace: the result is the longest prefix of `s`
      that does not end with whitespace. */
  function TrimEnd(s: string): (r: string)
    ensures |r| <= |s| && r == s[..|r|]
    ensures forall i :: |r| <= i < |s| ==> IsJsSpace(s[i])
    ensures |r| > 0 ==> !IsJsSpace(r[|r| - 1])
  {
    if |s| > 0 && IsJsSpace(s[|s| - 1]) then TrimEnd(s[..|s| - 1]) else s
  }

  /** `String.prototype.trim`: what is left once the whitespace at both
      ends is gone (TrimInfix: it is the contiguous middle of `s`). */
  function Trim(s: string): (r: string)
    ensures |r| <= |s|
    ensures |r| > 0 ==> !IsJsSpace(r[0]) && !IsJsSpace(r[|r| - 1])
  {
    TrimEnd(TrimStart(s))
  }

  /** The trimmed string is the infix of `s` that starts after the leading
      whitespace, and only whitespace lies before and after it. */
  lemma TrimInfix(s: string)
    ensures var k := |s| - |TrimStart(s)|; var r := Trim(s);
      && k + |r| <= |s|
      && r == s[k..k + |r|]
      && (forall i :: 0 <= i < k ==> IsJsSpace(s[i]))
      && (forall i :: k + |r| <= i < |s| ==> IsJsSpace(s[i]))
  {
    var a := TrimStart(s);
    var r := TrimEnd(a);
    var k := |s| - |a|;
    assert a == s[k..];
    assert r == a[..|r|];
    forall i | k + |r| <= i < |s|
      ensures IsJsSpace(s[i])
    {
      assert s[i] == a[i - k];
    }
  }

  /** Trimming leaves nothing exactly when every character is whitespace. */
  lemma TrimEmptyIff(s: string)
    ensures Trim(s) == [] <==> AllSpace(s)
  {
    TrimInfix(s);
    var r := Trim(s);
    var k := |s| - |TrimStart(s)|;
    if r != [] {
      assert s[k] == r[0];
    } else {
      assert s == s[..k] + s[k..];
    }
  }

  /** A string that neither starts nor ends with whitespace trims to itself. */
  lemma TrimUnchanged(s: string)
    requires |s| > 0 && !IsJsSpace(s[0]) && !IsJsSpace(s[|s| - 1])
    ensures Trim(s) == s
  {
    assert TrimStart(s) == s;
    assert TrimEnd(s) == s;
  }

  /** Trimming twice is trimming once. */
  lemma TrimIdempotent(s: string)
    ensures Trim(Trim(s)) == Trim(s)
  {
    var t := Trim(s);
    if |t| > 0 {
      assert TrimStart(t) == t;
      assert TrimEnd(t) == t;
    }
  }

  // ---------------------------------------------------------------------
  // split / join

  /** Glues the parts back together with `c` between neighbours
      (`Array.prototype.join`). */
  function Join(parts: seq<string>, c: char): string
  {
    if |parts| == 0 then []
    else if |parts| == 1 then parts[0]
    else parts[0] + [c] + Join(parts[1..], c)
  }

  /** `String.prototype.split` on a one-character separator: the pieces
      between separators, never fewer than one (`"".split(":")` is `[""]`),
      none containing the separator, and joining them gives back `s`. */
  function Split(s: string, c: char): (parts: seq<string>)
    ensures |parts| >= 1
    ensures forall i :: 0 <= i < |parts| ==> c !in parts[i]
    ensures Join(parts, c) == s
  {
    if |s| == 0 then [""]
    else
      var rest := Split(s[1..], c);
      if s[0] == c then
        assert s == [c] + s[1..];
        [""] + rest
      else
        var parts := [[s[0]] + rest[0]] + rest[1..];
        assert parts[1..] == rest[1..];
        assert s == [s[0]] + s[1..];
        parts
  }

  /** Splitting a piece that contains no separator gives that piece alone. */
  lemma {:induction false} SplitNoSeparator(p: string, c: char)
    requires c !in p
    ensures Split(p, c) == [p]
  {
    if |p| > 0 {
      SplitNoSeparator(p[1..], c);
      assert [p[0]] + p[1..] == p;
    }
  }

  /** A leading piece without the separator, then the separator, splits off
      as the first part. */
  lemma {:induction false} SplitCons(p: string, c: char, t: string)
    requires c !in p
    ensures Split(p + [c] + t, c) == [p] + Split(t, c)
  {
    if |p| == 0 {
      assert p + [c] + t == [c] + t;
      assert ([c] + t)[1..] == t;
    } else {
      SplitCons(p[1..], c, t);
      assert (p + [c] + t)[1..] == p[1..] + [c] + t;
      assert [p[0]] + p[1..] == p;
    }
  }

  /** Three separator-free pieces, each followed by the separator, split
      off as the first three parts, ahead of the parts of what follows. */
  lemma SplitThreeThenRest(a: string, b: string, c: string, rest: string, sep: char)
    requires sep !in a && sep !in b && sep !in c
    ensures Split(a + [sep] + b + [sep] + c + [sep] + rest, sep) == [a, b, c] + Split(rest, sep)
  {
    var r := Split(rest, sep);
    var t1 := c + [sep] + rest;
    var t2 := b + [sep] + t1;
    SplitCons(c, sep, rest);
    SplitCons(b, sep, t1);
    SplitCons(a, sep, t2);
    RegroupThree(a, b, c, rest, sep);
    assert [a] + ([b] + ([c] + r)) == [a, b, c] + r;
  }

  lemma RegroupThree(a: string, b: string, c: string, rest: string, sep: char)
    ensures a + [sep] + b + [sep] + c + [sep] + rest == a + [sep] + (b + [sep] + (c + [sep] + rest))
  {
  }

  /** Split undoes Join for parts free of the separator. */
  lemma {:induction false} SplitJoin(parts: seq<string>, c: char)
    requires |parts| >= 1
    requires forall i :: 0 <= i < |parts| ==> c !in parts[i]
    ensures Split(Join(parts, c), c) == parts
  {
    if |parts| == 1 {
      SplitNoSeparator(parts[0], c);
    } else {
      SplitJoin(parts[1..], c);
      SplitCons(parts[0], c, Join(parts[1..], c));
      assert [parts[0]] + parts[1..] == parts;
    }
  }

  // ---------------------------------------------------------------------
  // numerals

  function DigitValue(c: char): nat
    requires IsDigit(c)
  {
    (c as int) - ('0' as int)
  }

  function DigitChar(d: nat): (c: char)
    requires d < 10
    ensures IsDigit(c) && DigitValue(c) == d
  {
    (('0' as int) + d) as char
  }

  /** The value of a string of decimal digits, most significant first. */
  function DigitsValue(s: string): nat
    requires AllDigits(s)
  {
    if |s| == 0 then 0 else DigitsValue(s[..|s| - 1]) * 10 + DigitValue(s[|s| - 1])
  }

  /** The decimal rendering of a natural number, as `String(n)` produces it
      for an integer-valued number: digits only, no leading zero, and
      reading the digits back gives `n`. */
  function NatToString(n: nat): (s: string)
    ensures |s| >= 1 && AllDigits(s)
    ensures s[0] == '0' ==> n == 0 && |s| == 1
    ensures DigitsValue(s) == n
  {
    if n < 10 then [DigitChar(n)]
    else
      var s := NatToString(n / 10) + [DigitChar(n % 10)];
      assert s[..|s| - 1] == NatToString(n / 10);
      s
  }

  /** `String(i)` for an integer-valued number: a minus sign in front of
      the digits of a negative value. */
  function IntToString(i: int): (s: string)
    ensures i >= 0 ==> s == NatToString(i)
    ensures i < 0 ==> |s| >= 2 && s[0] == '-' && s[1..] == NatToString(-i)
  {
    if i < 0 then "-" + NatToString(-i) else NatToString(i)
  }

  /** `Number(str)` for the numerals the core reads: surrounding whitespace
      is ignored, a blank string is 0, an optional sign followed by ASCII
      digits is that integer, and every other string is NaN (`None`). */
  function NumberOf(s: string): (n: Option<int>)
    ensures AllSpace(s) ==> n == Some(0)
    ensures n.Some? && Trim(s) != [] ==> IsDigit(Trim(s)[|Trim(s)| - 1])
  {
    var t := Trim(s);
    TrimEmptyIff(s);
    if |t| == 0 then Some(0)
    else if AllDigits(t) then Some(DigitsValue(t))
    else if |t| >= 2 && (t[0] == '+' || t[0] == '-') && AllDigits(t[1..]) then
      assert t[|t| - 1] == t[1..][|t| - 2];
      var v: int := DigitsValue(t[1..]);
      if t[0] == '-' then Some(-v) else Some(v)
    else None
  }

  /** A non-empty run of digits reads as its decimal value. */
  lemma NumberOfDigits(t: string)
    requires |t| > 0 && AllDigits(t)
    ensures NumberOf(t) == Some(DigitsValue(t))
  {
    assert IsDigit(t[0]) && IsDigit(t[|t| - 1]);
    TrimUnchanged(t);
  }

  /** Number(String(i)) == i: reading back a rendered integer. */
  lemma NumberOfIntToString(i: int)
    ensures NumberOf(IntToString(i)) == Some(i)
  {
    var s := IntToString(i);
    assert !IsJsSpace(s[0]) && !IsJsSpace(s[|s| - 1]);
    TrimUnchanged(s);
    if i < 0 {
      assert !IsDigit(s[0]);
      assert !AllDigits(s);
      assert s[1..] == NatToString(-i);
    }
  }

  // ---------------------------------------------------------------------
  // toLowerCase

  /** The upper-case letters this model lowers: ASCII A-Z and the Latin-1
      capitals U+00C0-U+00DE other than the multiplication sign. */
  predicate IsUpper(c: char) {
    ('A' <= c <= 'Z') || ('\U{00C0}' <= c <= '\U{00DE}' && c != '\U{00D7}')
  }

  function LowerChar(c: char): char {
    if IsUpper(c) then ((c as int) + 32) as char else c
  }

  /** `String.prototype.toLowerCase` on ASCII and Latin-1: same length,
      no upper-case letter left, every other character untouched. */
  function ToLower(s: string): (r: string)
    ensures |r| == |s|
    ensures forall i :: 0 <= i < |r| ==> !IsUpper(r[i])
    ensures forall i :: 0 <= i < |s| && !IsUpper(s[i]) ==> r[i] == s[i]
    ensures forall i :: 0 <= i < |s| && IsUpper(s[i]) ==> r[i] as int == s[i] as int + 32
  {
    seq(|s|, i requires 0 <= i < |s| => LowerChar(s[i]))
  }
}

=== FILE: toast.dfy ===
/** The progress toast (components/DownloadProgress.tsx): the file name it
    shows, the colours, icon and message for each status, and when the
    cancel control appears. */
module Toast {
  import opened Options
  import opened Types
  import opened Text
  import opened DownloadLifecycle

  datatype Icon = VideoIcon | AudioIcon | CheckCircleIcon | XCircleIcon

  datatype StatusInfo = StatusInfo(bgColor: string, textColor: string, icon: Icon, message: string)

  /** The completion message exactly as the source spells it: the
      characters U+221A and U+2260 stand where "í" was meant. */
  const CompletedMessage: string := "Conclu\U{221A}\U{2260}do!"
  const FailedMessage: string := "Falhou"

  /** How many leading characters of the title the file name keeps. */
  const TitleKept: nat := 30

  /** What goes between the shortened title and the quality. */
  const TitleSuffix: string := "... - "

  function Min(a: nat, b: nat): nat {
    if a <= b then a else b
  }

  /** The file name shown for a download (components/DownloadProgress.tsx:14):
      the first 30 characters of the title (all of a shorter one), then
      "... - ", the quality, a dot and the lower-cased format. */
  function FileName(d: Download): (name: string)
    ensures var k := Min(TitleKept, |d.videoTitle|);
      && |name| == k + |TitleSuffix| + |d.format.quality| + 1 + |d.format.format|
      && name[..k] == d.videoTitle[..k]
      && name[k..k + |TitleSuffix|] == TitleSuffix
      && name[k + |TitleSuffix|..k + |TitleSuffix| + |d.format.quality|] == d.format.quality
      && name[|name| - |d.format.format| - 1] == '.'
      && name[|name| - |d.format.format|..] == ToLower(d.format.format)
      && name[|name| - |d.format.format| - 1..] == "." + ToLower(d.format.format)
  {
    var k := Min(TitleKept, |d.videoTitle|);
    var head := d.videoTitle[..k] + TitleSuffix + d.format.quality;
    var name := head + "." + ToLower(d.format.format);
    assert name == (head + ".") + ToLower(d.format.format);
    assert name == head + ("." + ToLower(d.format.format));
    name
  }

  /** The extension of the file name contains no upper-case letter, and
      differs from the format only in letter case. */
  lemma FileNameExtensionLowered(d: Download)
    ensures var name := FileName(d); var ext := name[|name| - |d.format.format|..];
      && (forall i :: 0 <= i < |ext| ==> !IsUpper(ext[i]))
      && (forall i :: 0 <= i < |ext| ==> ext[i] == d.format.format[i] || ext[i] as int == d.format.format[i] as int + 32)
  {
  }

  /** The extension a row of the download panel's catalog gives its file
      name (the lowered format after the final dot, see FileName): "mp4"
      for a video row, "mp3" or "m4a" for an audio row. */
  lemma CatalogExtensions(f: DownloadFormat)
    requires f in VideoFormats + AudioFormats
    ensures f.kind == Video ==> ToLower(f.format) == "mp4"
    ensures f.kind == Audio ==> ToLower(f.format) == "mp3" || ToLower(f.format) == "m4a"
  {
    CatalogContainers(f);
    LowerContainers();
  }

  lemma LowerContainers()
    ensures ToLower("MP4") == "mp4" && ToLower("MP3") == "mp3" && ToLower("M4A") == "m4a"
  {
  }

  /** The catalog's video rows are MP4 and its audio rows MP3 or M4A. */
  lemma CatalogContainers(f: DownloadFormat)
    requires f in VideoFormats + AudioFormats
    ensures f.kind == Video ==> f.format == "MP4"
    ensures f.kind == Audio ==> f.format == "MP3" || f.format == "M4A"
  {
  }

  /** `Math.round`: the integer nearest to `x`, halves rounded up. */
  function RoundHalfUp(x: real): (n: int)
    ensures n as real - 0.5 <= x < n as real + 0.5
  {
    (x + 0.5).Floor
  }

  /** getStatusInfo (components/DownloadProgress.tsx:16-43): blue with the
      video or audio icon and the rounded percentage while downloading,
      green with the check icon and the completion message once completed,
      red with the cross icon and "Falhou" when cancelled or failed. */
  function StatusInfoOf(d: Download): (info: StatusInfo)
    ensures d.status == Downloading ==>
      && info.bgColor == "bg-blue-600" && info.textColor == "text-blue-100"
      && (info.icon == VideoIcon <==> d.format.kind == Video)
      && (info.icon == AudioIcon <==> d.format.kind == Audio)
      && info.message == IntToString(RoundHalfUp(d.progress)) + "%"
    ensures d.status == Completed ==>
      info == StatusInfo("bg-green-600", "text-green-100", CheckCircleIcon, CompletedMessage)
    ensures d.status == Cancelled || d.status == Error ==>
      info == StatusInfo("bg-red-600", "text-red-100", XCircleIcon, FailedMessage)
  {
    match d.status
    case Downloading =>
      StatusInfo("bg-blue-600", "text-blue-100",
                 if d.format.kind == Video then VideoIcon else AudioIcon,
                 IntToString(RoundHalfUp(d.progress)) + "%")
    case Completed => StatusInfo("bg-green-600", "text-green-100", CheckCircleIcon, CompletedMessage)
    case Cancelled => StatusInfo("bg-red-600", "text-red-100", XCircleIcon, FailedMessage)
    case Error => StatusInfo("bg-red-600", "text-red-100", XCircleIcon, FailedMessage)
  }

  /** A cancelled and a failed download look the same. */
  lemma CancelledLooksLikeError(d: Download)
    ensures StatusInfoOf(d.(status := Cancelled)) == StatusInfoOf(d.(status := Error))
  {
  }

  /** The percentage shown while downloading reads back as the rounded
      progress. */
  lemma PercentReadsBack(d: Download)
    requires d.status == Downloading
    ensures var m := StatusInfoOf(d).message;
      |m| >= 2 && m[|m| - 1] == '%' && NumberOf(m[..|m| - 1]) == Some(RoundHalfUp(d.progress))
  {
    var m := StatusInfoOf(d).message;
    assert m[..|m| - 1] == IntToString(RoundHalfUp(d.progress));
    NumberOfIntToString(RoundHalfUp(d.progress));
  }

  /** While downloading, the percentage shown lies between 0 and 100; a
      download at 99.5 % or more already shows 100 % before it completes. */
  lemma PercentShownWhileDownloading(s: DownloadState)
    requires Valid(s) && IsDownloading(s)
    ensures 0 <= RoundHalfUp(s.download.value.progress) <= 100
    ensures s.download.value.progress >= 99.5 ==> StatusInfoOf(s.download.value).message == "100%"
  {
    var p := s.download.value.progress;
    if p >= 99.5 {
      assert RoundHalfUp(p) == 100;
      assert IntToString(100) == "100";
    }
  }

  /** The cancel control is shown only while downloading
      (components/DownloadProgress.tsx:63). */
  predicate ShowsCancel(d: Download): (shown: bool)
    ensures shown <==> StatusInfoOf(d).bgColor == "bg-blue-600"
    ensures shown ==> StatusInfoOf(d).message != CompletedMessage && StatusInfoOf(d).message != FailedMessage
  {
    var m := StatusInfoOf(d).message;
    assert d.status == Downloading ==> |m| > 0 && m[|m| - 1] == '%';
    d.status == Downloading
  }

  /** On every reachable state, the cancel control is shown exactly while
      the progress interval runs. */
  lemma CancelShownIffTicking(s: DownloadState)
    requires Valid(s) && s.download.Some?
    ensures ShowsCancel(s.download.value) <==> s.ticking
  {
  }
}

=== FILE: types.dfy ===
/** The records the app passes around (types.ts), and the fixed data the
    app ships with: the format catalog offered for download and the mock
    video a plain search returns. */
module Types {

  /** The `type` field of a format: whether it downloads video or audio. */
  datatype MediaType = Video | Audio

  /** The user's chosen quality/format pair (types.ts DownloadFormat). */
  datatype DownloadFormat = DownloadFormat(quality: string, format: string, size: string, kind: MediaType)

  /** The metadata shown for one video (types.ts VideoInfo). */
  datatype VideoInfo = VideoInfo(
    id: string,
    thumbnailUrl: string,
    title: string,
    channel: string,
    duration: string,
    uploadDate: string,
    views: int,
    likes: int,
    description: string)

  datatype Status = Downloading | Completed | Cancelled | Error

  /** The single live download shown in the progress toast (types.ts
      DownloadProgress); `progress` is a percentage. */
  datatype Download = Download(format: DownloadFormat, videoTitle: string, progress: real, status: Status)

  /** The signed-in identity; only its id matters to the core. */
  datatype User = User(uid: string)

  /** What the app writes to the user's history collection when a download
      completes; the store adds the server timestamp. */
  datatype HistoryRecord = HistoryRecord(videoTitle: string, format: DownloadFormat)

  /** One entry of the history list the store's live query delivers. */
  datatype HistoryItem = HistoryItem(id: string, videoTitle: string, format: DownloadFormat, timestamp: string)

  /** The video rows of the download panel (components/DownloadOptions.tsx). */
  const VideoFormats: seq<DownloadFormat> := [
    DownloadFormat("1080p", "MP4", "128 MB", Video),
    DownloadFormat("720p", "MP4", "75 MB", Video),
    DownloadFormat("480p", "MP4", "42 MB", Video),
    DownloadFormat("360p", "MP4", "25 MB", Video)
  ]

  /** The audio rows of the download panel (components/DownloadOptions.tsx). */
  const AudioFormats: seq<DownloadFormat> := [
    DownloadFormat("320kbps", "MP3", "8.5 MB", Audio),
    DownloadFormat("256kbps", "MP3", "6.8 MB", Audio),
    DownloadFormat("128kbps", "MP3", "3.4 MB", Audio),
    DownloadFormat("Best", "M4A", "5.1 MB", Audio)
  ]

  /** The fixed metadata a plain search yields after its simulated latency. */
  const MockVideo: VideoInfo := VideoInfo(
    "dQw4w9WgXcQ",
    "https://picsum.photos/seed/youtubedl/1280/720",
    "Título do Vídeo de Exemplo - Lorem Ipsum Dolor Sit Amet Consectetur",
    "Canal de Exemplo",
    "03:32",
    "2023-10-26",
    1234567,
    98765,
    "Esta é uma descrição de exemplo para o vídeo. Lorem ipsum dolor sit amet, consectetur adipiscing elit. Sed do eiusmod tempor incididunt ut labore et dolore magna aliqua.")
}

=== FILE: url_validator.dfy ===
/** The link check that gates a plain search (App.tsx `isValidYoutubeUrl`):
    the anchored pattern
      optional `http://` or `https://`, optional `www.`,
      one of `youtube.com`, `youtube`, `youtu.be`, a `/`,
      then one or more characters other than line terminators.
    `IsValidYoutubeUrl` reads the string left to right, the only way the
    pattern can match; `MatchesPattern` is the pattern's language stated as
    "some choice of the optional parts spells the start of the string", and
    `ValidIffMatchesPattern` proves the two agree on every string. */
module UrlValidator {
  import opened Options
  import opened Text

  /** `p` occurs in `s` starting at index `k`. */
  predicate OccursAt(s: string, k: nat, p: string) {
    k + |p| <= |s| && forall i :: 0 <= i < |p| ==> s[k + i] == p[i]
  }

  /** From index `k` on, `s` is non-empty and free of line terminators: what
      `.+$` matches. */
  predicate TailFrom(s: string, k: nat) {
    k < |s| && forall i :: k <= i < |s| ==> !IsLineTerminator(s[i])
  }

  /** The alternatives of the group `(https?:\/\/)?`. */
  datatype Scheme = NoScheme | Http | Https

  /** The alternatives of the group `(youtube\.com|youtu\.?be)`, each with
      the `/` that must follow it. */
  datatype Host = YoutubeCom | Youtube | YoutuBe

  function SchemeText(x: Scheme): string {
    match x
    case NoScheme => ""
    case Http => "http://"
    case Https => "https://"
  }

  function WwwText(www: bool): string {
    if www then "www." else ""
  }

  function HostText(h: Host): string {
    match h
    case YoutubeCom => "youtube.com/"
    case Youtube => "youtube/"
    case YoutuBe => "youtu.be/"
  }

  /** Which scheme the string starts with (none when neither fits). */
  function SchemeOf(s: string): (x: Scheme)
    ensures OccursAt(s, 0, SchemeText(x))
  {
    if OccursAt(s, 0, "https://") then Https
    else if OccursAt(s, 0, "http://") then Http
    else NoScheme
  }

  /** Whether `www.` follows at index `k`. */
  function HasWww(s: string, k: nat): (www: bool)
    requires k <= |s|
    ensures OccursAt(s, k, WwwText(www))
  {
    OccursAt(s, k, "www.")
  }

  /** Which host, with its slash, starts at index `k`, if any. */
  function HostOf(s: string, k: nat): (h: Option<Host>)
    ensures h.Some? ==> OccursAt(s, k, HostText(h.value))
  {
    if OccursAt(s, k, "youtube.com/") then Some(YoutubeCom)
    else if OccursAt(s, k, "youtube/") then Some(Youtube)
    else if OccursAt(s, k, "youtu.be/") then Some(YoutuBe)
    else None
  }

  /** App.tsx isValidYoutubeUrl: read the optional scheme, the optional
      `www.`, a host and its slash, then demand a non-empty tail without
      line terminators running to the end of the input. */
  predicate IsValidYoutubeUrl(s: string): (ok: bool)
    ensures ok ==> 9 <= |s| && !IsLineTerminator(s[|s| - 1])
  {
    var k := |SchemeText(SchemeOf(s))|;
    var k' := k + |WwwText(HasWww(s, k))|;
    match HostOf(s, k')
    case None => false
    case Some(h) => TailFrom(s, k' + |HostText(h)|)
  }

  // ---------------------------------------------------------------------
  // the pattern's language

  /** What precedes the free tail for one choice of the optional parts. */
  function PatternPrefix(x: Scheme, www: bool, h: Host): string {
    SchemeText(x) + WwwText(www) + HostText(h)
  }

  /** `s` is the prefix for (x, www, h) followed by a non-empty tail free of
      line terminators. */
  ghost predicate ShapedAs(s: string, x: Scheme, www: bool, h: Host) {
    var p := PatternPrefix(x, www, h);
    OccursAt(s, 0, p) && TailFrom(s, |p|)
  }

  /** The language of the anchored pattern: some choice of the optional
      parts spells the string. */
  ghost predicate MatchesPattern(s: string) {
    exists x, www, h :: ShapedAs(s, x, www, h)
  }

  lemma CharAt(s: string, k: nat, p: string, i: nat)
    requires OccursAt(s, k, p) && i < |p|
    ensures s[k + i] == p[i]
  {
  }

  lemma Mismatch(s: string, k: nat, p: string, i: nat)
    requires k + |p| <= |s| ==> i < |p| && s[k + i] != p[i]
    ensures !OccursAt(s, k, p)
  {
  }

  /** Three pieces found one after another make up their concatenation. */
  lemma OccursAtConcat(s: string, a: string, b: string, c: string)
    requires OccursAt(s, 0, a) && OccursAt(s, |a|, b) && OccursAt(s, |a| + |b|, c)
    ensures OccursAt(s, 0, a + b + c)
  {
    forall i | 0 <= i < |a + b + c| ensures s[i] == (a + b + c)[i] {
      if i < |a| {
        CharAt(s, 0, a, i);
      } else if i < |a| + |b| {
        CharAt(s, |a|, b, i - |a|);
      } else {
        CharAt(s, |a| + |b|, c, i - |a| - |b|);
      }
    }
  }

  lemma SchemeOfPrefix(s: string, x: Scheme)
    requires OccursAt(s, 0, SchemeText(x))
    requires |SchemeText(x)| < |s| && (s[|SchemeText(x)|] == 'w' || s[|SchemeText(x)|] == 'y')
    ensures SchemeOf(s) == x
  {
    match x
    case NoScheme =>
      Mismatch(s, 0, "https://", 0);
      Mismatch(s, 0, "http://", 0);
    case Http =>
      CharAt(s, 0, "http://", 4);
      Mismatch(s, 0, "https://", 4);
    case Https =>
  }

  lemma HasWwwPrefix(s: string, k: nat, www: bool)
    requires OccursAt(s, k, WwwText(www))
    requires k + |WwwText(www)| < |s| && s[k + |WwwText(www)|] == 'y'
    ensures HasWww(s, k) == www
  {
    if !www {
      Mismatch(s, k, "www.", 0);
    }
  }

  lemma HostOfPrefix(s: string, k: nat, h: Host)
    requires OccursAt(s, k, HostText(h))
    ensures HostOf(s, k) == Some(h)
  {
    match h
    case YoutubeCom =>
    case Youtube =>
      CharAt(s, k, "youtube/", 7);
      Mismatch(s, k, "youtube.com/", 7);
    case YoutuBe =>
      CharAt(s, k, "youtu.be/", 5);
      Mismatch(s, k, "youtube.com/", 5);
      Mismatch(s, k, "youtube/", 5);
  }

  /** On a string that starts with the prefix of one choice of the optional
      parts, the left-to-right reading lands on that choice, so the verdict
      rests on the tail alone. */
  lemma ReadShape(s: string, x: Scheme, www: bool, h: Host)
    requires OccursAt(s, 0, PatternPrefix(x, www, h))
    ensures IsValidYoutubeUrl(s) <==> ShapedAs(s, x, www, h)
  {
    var a, b, c := SchemeText(x), WwwText(www), HostText(h);
    assert OccursAt(s, 0, a) by {
      forall i | 0 <= i < |a| ensures s[i] == a[i] {
        assert (a + b + c)[i] == a[i];
      }
    }
    assert OccursAt(s, |a|, b) by {
      forall i | 0 <= i < |b| ensures s[|a| + i] == b[i] {
        assert (a + b + c)[|a| + i] == b[i];
      }
    }
    assert OccursAt(s, |a| + |b|, c) by {
      forall i | 0 <= i < |c| ensures s[|a| + |b| + i] == c[i] {
        assert (a + b + c)[|a| + |b| + i] == c[i];
      }
    }
    CharAt(s, |a| + |b|, c, 0);
    if www {
      CharAt(s, |a|, b, 0);
    }
    SchemeOfPrefix(s, x);
    HasWwwPrefix(s, |a|, www);
    HostOfPrefix(s, |a| + |b|, h);
  }

  /** Every string the pattern describes passes the left-to-right reading. */
  lemma PatternImpliesValid(s: string, x: Scheme, www: bool, h: Host)
    requires ShapedAs(s, x, www, h)
    ensures IsValidYoutubeUrl(s)
  {
    ReadShape(s, x, www, h);
  }

  /** Every string the left-to-right reading accepts is spelled by the
      choice it read. */
  lemma ValidImpliesPattern(s: string)
    requires IsValidYoutubeUrl(s)
    ensures ShapedAs(s, SchemeOf(s), HasWww(s, |SchemeText(SchemeOf(s))|),
                     HostOf(s, |SchemeText(SchemeOf(s))| + |WwwText(HasWww(s, |SchemeText(SchemeOf(s))|))|).value)
  {
    var x := SchemeOf(s);
    var k := |SchemeText(x)|;
    var www := HasWww(s, k);
    var h := HostOf(s, k + |WwwText(www)|).value;
    OccursAtConcat(s, SchemeText(x), WwwText(www), HostText(h));
  }

  /** The left-to-right reading accepts exactly the strings the pattern
      describes. */
  lemma ValidIffMatchesPattern(s: string)
    ensures IsValidYoutubeUrl(s) <==> MatchesPattern(s)
  {
    if MatchesPattern(s) {
      var x, www, h :| ShapedAs(s, x, www, h);
      PatternImpliesValid(s, x, www, h);
    }
    if IsValidYoutubeUrl(s) {
      ValidImpliesPattern(s);
    }
  }

  /** Behind any prefix of the pattern, the verdict is exactly "the rest is
      non-empty and has no line terminator". */
  lemma ValidAfterPrefix(x: Scheme, www: bool, h: Host, rest: string)
    ensures IsValidYoutubeUrl(PatternPrefix(x, www, h) + rest)
            <==> |rest| >= 1 && forall i :: 0 <= i < |rest| ==> !IsLineTerminator(rest[i])
  {
    var p := PatternPrefix(x, www, h);
    var s := p + rest;
    assert OccursAt(s, 0, p) by {
      forall i | 0 <= i < |p| ensures s[i] == p[i] {
      }
    }
    ReadShape(s, x, www, h);
    TailAfter(p, rest);
  }

  /** The tail behind a prefix is proper exactly when what follows the
      prefix is non-empty and free of line terminators. */
  lemma TailAfter(p: string, rest: string)
    ensures TailFrom(p + rest, |p|)
            <==> |rest| >= 1 && forall i :: 0 <= i < |rest| ==> !IsLineTerminator(rest[i])
  {
    var s := p + rest;
    if |rest| >= 1 && forall i :: 0 <= i < |rest| ==> !IsLineTerminator(rest[i]) {
      forall i | |p| <= i < |s| ensures !IsLineTerminator(s[i]) {
        assert s[i] == rest[i - |p|];
      }
    }
    if TailFrom(s, |p|) {
      forall i | 0 <= i < |rest| ensures !IsLineTerminator(rest[i]) {
        assert s[|p| + i] == rest[i];
      }
    }
  }

  /** A string read piece by piece as one choice of the optional parts,
      followed by a proper tail, passes. */
  lemma ValidFromParts(s: string, x: Scheme, www: bool, h: Host)
    requires OccursAt(s, 0, SchemeText(x))
    requires OccursAt(s, |SchemeText(x)|, WwwText(www))
    requires OccursAt(s, |SchemeText(x)| + |WwwText(www)|, HostText(h))
    requires TailFrom(s, |PatternPrefix(x, www, h)|)
    ensures IsValidYoutubeUrl(s)
  {
    OccursAtConcat(s, SchemeText(x), WwwText(www), HostText(h));
    ReadShape(s, x, www, h);
  }

  lemma WatchLinkParts(s: string)
    requires s == "https://www.youtube.com/watch?v=dQw4w9WgXcQ"
    ensures OccursAt(s, 0, SchemeText(Https))
    ensures OccursAt(s, 8, WwwText(true))
    ensures OccursAt(s, 12, HostText(YoutubeCom))
    ensures TailFrom(s, 24)
  {
  }

  /** A typical watch link passes. */
  lemma AcceptsWatchLink()
    ensures IsValidYoutubeUrl("https://www.youtube.com/watch?v=dQw4w9WgXcQ")
  {
    var s := "https://www.youtube.com/watch?v=dQw4w9WgXcQ";
    WatchLinkParts(s);
    ValidFromParts(s, Https, true, YoutubeCom);
  }

  /** A short link without scheme passes. */
  lemma AcceptsShortLink()
    ensures IsValidYoutubeUrl("youtu.be/dQw4w9WgXcQ")
  {
    var s := "youtu.be/dQw4w9WgXcQ";
    assert OccursAt(s, 0, "youtu.be/");
    assert TailFrom(s, 9);
    ValidFromParts(s, NoScheme, false, YoutuBe);
  }

  /** Free text is refused: no host starts where the scheme would end. */
  lemma RejectsFreeText()
    ensures !IsValidYoutubeUrl("not a url")
  {
    var s := "not a url";
    Mismatch(s, 0, "https://", 0);
    Mismatch(s, 0, "http://", 0);
    Mismatch(s, 0, "www.", 0);
    Mismatch(s, 0, "youtube.com/", 0);
    Mismatch(s, 0, "youtube/", 0);
    Mismatch(s, 0, "youtu.be/", 0);
  }

  /** A host with nothing after its slash is refused, whatever the scheme
      and `www.` part. */
  lemma RejectsEmptyTail(x: Scheme, www: bool, h: Host)
    ensures !IsValidYoutubeUrl(PatternPrefix(x, www, h))
  {
    ValidAfterPrefix(x, www, h, "");
    assert PatternPrefix(x, www, h) + "" == PatternPrefix(x, www, h);
  }

  /** A link broken across two lines is refused: `.` stops at the line
      terminator and `$` needs the end of the input. */
  lemma RejectsLineBreak(x: Scheme, www: bool, h: Host)
    ensures !IsValidYoutubeUrl(PatternPrefix(x, www, h) + "a\nb")
  {
    ValidAfterPrefix(x, www, h, "a\nb");
    assert IsLineTerminator("a\nb"[1]);
  }

  /** The empty string is never valid, so the separate emptiness test in
      front of the call adds nothing. */
  lemma EmptyIsInvalid()
    ensures !IsValidYoutubeUrl("")
  {
  }
}
